=== FILE: README.md ===
# Tabular Q-learning agent — Dafny model

This project models the learning and evaluation engine of a small Q-learning
client (`CleanQLearning`) that drives a platform game over a socket, and the
reply handling of its connection helper. Covered:

- the Q-table: 96 states by 3 actions (`left`, `right`, `jump`), uniform 0.1
  when no snapshot is accepted;
- state decoding into platform (`state >> 2`) and direction (`state & 0b11`,
  one of Norte, Leste, Sul, Oeste);
- greedy selection `row.index(max(row))`, i.e. the first maximal action;
- epsilon-greedy choice and the per-episode decay `max(ε·decay, 0.01)`;
- the one-step Q-learning update of a single cell;
- episode classification (SUCCESS at reward 300, then DEATH at −100, then
  TIMEOUT at 500 steps, else CONTINUE);
- the warm-start reading of a stored table (`load_or_create_table`, minus file
  access);
- the training loop (`train_agent`) with its counters, route log and epsilon
  decay, and the evaluation loop (`test_policy`);
- `get_state_reward`: the renaming of the Portuguese fields `estado` and
  `recompensa` to `state` and `reward`, and the receive loop that skips
  unparseable messages.

Numbers are Dafny `real`s. The environment is a scripted sequence: for
training, one `TrainStep` per environment call holding the two random draws of
action selection and the reply; for evaluation, one `Reply` per call. A reply
is either a converted `(next state, reward)` pair or a failure (any exception
raised while getting or converting the reply). When a script runs out, the
model returns `None`: that stands for an environment that never answers again,
where the program would block.

Modules, one per file: `Options`, `QTable`, `Policy` (action choice and epsilon
decay), `Episode` (classification), `TableLoad`, `Snapshot` (the written table
format and a reader for it), `Connection`, `Training`, `Evaluation`.

Three behaviours of the code worth stating plainly:

- A failed environment step does not count as a death and does no update. The
  training loop leaves the episode with `break` before the update and before
  the counters.
- The budget check sees the step count taken before the current step, so an
  episode with no terminal reward makes 501 environment calls before it times
  out.
- A stored table line of the wrong length is skipped. A word that does not
  convert to a number rejects the whole snapshot, because the conversion
  error is caught around the entire loop.

## Model

| member | source | states |
|---|---|---|
| QTable.Default | src/client.py:39 | the fallback table has 96 rows of 3 cells, each 0.1 |
| QTable.DecodeState | src/client.py:63-67 | any state splits into a platform and a direction below 4 with `platform*4 + direction == state`; the name is that direction's compass name |
| QTable.DecodeEncode | src/client.py:63-65 | decoding is lossless: re-encoding the parts gives the state back |
| QTable.EncodeDecode | src/client.py:63-65 | a platform and a direction below 4 survive encoding and decoding |
| QTable.Max | src/client.py:45 | `max(row)` is an element of the row and no element exceeds it |
| QTable.IndexOf | src/client.py:45 | `row.index(v)` is the first position that holds `v` |
| QTable.Greedy | src/client.py:45 | greedy selection gives a maximal position with every earlier value strictly smaller |
| QTable.FirstMaxUnique | src/client.py:45 | only one position can be the first maximum, so greedy choice depends on the row alone |
| QTable.GreedyTieBreak | src/client.py:45 | a row of equal values gives action 0 |
| QTable.BestAction | src/client.py:141 | the greedy action of a valid state is a valid action and the row's first maximum |
| QTable.Update | src/client.py:47-51 | the result is still 96×3; cell (s, a) moves by `α·(target − old)`; every other cell is unchanged |
| QTable.TerminalUpdate | src/client.py:47-51 | on a terminal step only cell (s, a) changes, and it moves by `α·(reward − old)` |
| QTable.TerminalIgnoresNextState | src/client.py:48 | on a terminal step the next state's row is never read: any next state gives the same table |
| QTable.UpdateMovesTowardTarget | src/client.py:49-51 | with α in [0, 1] the new value lies between the old value and the target; α = 1 gives the target |
| QTable.UpdateExample | src/client.py:47-51 | with the default α = 0.1 and γ = 0.97, a terminal reward of 300 on a 0.1 cell gives 30.09 |
| Policy.Choose | src/client.py:41-45 | the action is valid; a coin below ε gives the drawn action, otherwise the first maximum of the row |
| Policy.ZeroEpsilonIsGreedy | src/client.py:133 | with ε forced to 0, selection is the plain greedy lookup |
| Policy.Decay | src/client.py:116 | decayed ε is at least 0.01 and at least ε·decay, and equals one of the two |
| Policy.DecayNeverIncreases | src/client.py:116 | from ε ≥ 0.01 with a factor in [0, 1], one decay never increases ε |
| Policy.DecayNMonotone | src/client.py:74-116 | over any number of episodes ε stays at or above 0.01 and never increases |
| Episode.Classify | src/client.py:53-61 | reward 300 is SUCCESS; otherwise −100 is DEATH; otherwise a count of at least 500 is TIMEOUT; `done` holds exactly when the status is not CONTINUE |
| Episode.SuccessIgnoresSteps | src/client.py:54-55 | reward 300 gives SUCCESS at every step count |
| Episode.DeathAtStepZero | src/client.py:56-57 | reward −100 ends the episode as DEATH at step 0 |
| Episode.TimeoutIsMonotone | src/client.py:58-61 | a timeout persists at later counts, and a continuing reward also continues at earlier counts |
| Episode.OrdinaryRewardContinues | src/client.py:60-61 | reward 5 at step 10 continues the episode |
| Connection.Rename | src/connection.py:24-25 | a present key is moved to its new name with its value; other keys are untouched |
| Connection.Normalise | src/connection.py:24-27 | `estado` and `recompensa` are gone; `state`/`reward` carry the localised value when it was present (overwriting a canonical one), else their own; all other keys unchanged |
| Connection.NormaliseCanonical | src/connection.py:24-27 | normalisation yields a canonical message and leaves canonical messages unchanged |
| Connection.NormaliseIdempotent | src/connection.py:24-27 | normalising twice is normalising once |
| Connection.FirstParsed | src/connection.py:18-22 | the chosen message parses and every earlier one does not; none is chosen exactly when none parses |
| Connection.GetStateReward | src/connection.py:18-32 | the reply comes from the first parsable message after normalisation; it is a success exactly when both `state` and `reward` are present, otherwise a missing-field error that is not retried; with no parsable message the call never returns |
| Connection.SkipsGarbage | src/connection.py:18-30 | unparseable messages ahead of a reply change only the count of messages read |
| Connection.FirstParsedShift | src/connection.py:18-30 | prefixing unparseable messages shifts the first parsed position by their number |
| TableLoad.WordLength | src/client.py:30 | the length of the leading run of non-blank characters |
| TableLoad.Words | src/client.py:29-30 | `split()` gives non-empty words with no blanks; there are none exactly when the line is blank |
| TableLoad.WordsOfWord | src/client.py:30 | a single word with no blanks splits into itself |
| TableLoad.WordsSplit | src/client.py:30 | a blank character separates: the words of `a`, blank, `b` are the words of `a` followed by the words of `b` |
| TableLoad.ParseAll | src/client.py:30 | the conversion succeeds exactly when every word converts, and gives one number per word, in order |
| TableLoad.ParseRows | src/client.py:27-33 | the read succeeds exactly when every line converts; the rows all have 3 values and are no more than the lines |
| TableLoad.ParseRowsSingle | src/client.py:29-32 | one line gives its three numbers as a row, or no row when it is blank or has another count |
| TableLoad.ParseRowsAppend | src/client.py:28-32 | the rows of concatenated lines are the concatenated rows, and any failing line fails the whole read |
| TableLoad.LoadOrCreate | src/client.py:21-39 | the table is always 96×3; it is the parsed rows exactly when, after the two header lines, every line converts and 96 rows remain, else uniform 0.1 |
| TableLoad.WrongRowCountFallsBack | src/client.py:34-39 | a snapshot with a row count other than 96 gives the uniform table |
| Snapshot.WrittenSnapshotIsRejected | src/client.py:25-30 | the table file the program itself writes is never accepted on reload |
| Snapshot.WordsOfJoin | src/client.py:30 | splitting a line made of words separated by blanks gives the words back |
| Snapshot.NatToString | src/client.py:189 | a written state or platform number is a single word |
| Snapshot.Render | src/client.py:174-189 | the written file has 4 header lines then one row line per state, with the column header as its third line |
| Snapshot.RowLines | src/client.py:180-189 | one row line per state, made of that state's words |
| Snapshot.Reread | src/client.py:185-189 | each cell of the re-read table is the cell printed and converted back |
| Snapshot.LoadSnapshot | src/client.py:21-39 | reading the written format always yields a 96×3 table |
| Snapshot.RowOfRendered | src/client.py:185-189 | the written row of a state reads back as that state's re-read row |
| Snapshot.SnapshotRowsAll | src/client.py:28-32 | lines that are all table rows give one row each, in order |
| Snapshot.RenderedRows | src/client.py:174-189 | the row lines of a written file read back as the re-read table |
| Snapshot.SnapshotRoundTrip | src/client.py:174-189 | loading a written snapshot gives the table with every value printed and converted back |
| Snapshot.LosslessSnapshotRoundTrip | src/client.py:174-189 | with an exact number format, loading a written snapshot restores the table itself |
| Training.ClientReply | src/client.py:87-95 | a missing field or a failed conversion is a failure; a reply carries exactly the two converted values; a blocked receive gives no reply |
| Training.Describe | src/client.py:81-85 | a route entry names the state's platform and direction and the action's label |
| Training.RunEpisode | src/client.py:80-114 | an episode makes at least one call and one route entry per call; every call before the last continued; it is aborted exactly when the last reply failed, with one update fewer than calls; otherwise it ends with the last step's terminal status and one update per call |
| Training.RunEpisodeReplays | src/client.py:80-98 | the table an episode leaves is the replay, call by call, of its updates: each call's cell is updated from that call's own reply, classified at that call's step; the action of each call is the ε-greedy choice, from that call's draws, on the table as the earlier calls left it |
| Training.ReplayShift | src/client.py:97-114 | replaying a first update and then the calls after it equals replaying those calls from the table the first update wrote |
| Training.RunEpisodeWrites | src/client.py:75-114 | the episode's visited cells are the state it started in followed by each reply's next state, each paired with the valid action sent there and described by its route entry; every cell outside the first `updates` visited ones keeps its value |
| Training.FailedCallWritesNothing | src/client.py:91-95 | on an aborted episode the failed call's own cell is not written, unless an earlier call of the episode already wrote it |
| Training.RunEpisodeFrame | src/client.py:98 | rows of states the episode never stood in keep their values |
| Training.FailedStepWritesNothing | src/client.py:91-95 | a failed first step aborts the episode with the table unchanged and no update |
| Training.TimeoutAfter501Steps | src/client.py:97-114 | without a terminal reward an episode ends as TIMEOUT after exactly 501 calls |
| Training.Record | src/client.py:100-111 | the terminal status bumps its own counter by one; an aborted episode bumps none |
| Training.EndEpisode | src/client.py:100-116 | the episode's end is recorded; its status bumps its own counter; a route is logged exactly when the episode succeeded, with its 1-based number; ε decays once |
| Training.SuccessNumbersExact | src/client.py:100-107 | an episode number is in the success list exactly when that episode succeeded, and the list is as long as the count of successes |
| Training.EndEpisodeTallied | src/client.py:100-111 | ending an episode keeps the agreement between the counters, the log and the recorded ends: each counter equals the number of episodes that ended with its status, and the log entries carry exactly the numbers of the succeeded episodes, in order |
| Training.TrainedStep | src/client.py:74-116 | the promises about one episode compose with those about the remaining ones: counters and their agreement with the recorded ends, log prefix and order, and ε decayed one more time |
| Training.TrainFrom | src/client.py:74-116 | over the remaining episodes: one recorded end per episode, earlier ends kept; if the counters and log agreed with the ends before, they still agree after: each counter counts the episodes with its status, and the log holds exactly the succeeded episodes' numbers; counters total at most the episode count; log growth equals new successes; earlier entries kept; new entries numbered increasingly in range, with one route entry per step; ε decayed once per episode |
| Training.FirstEndIsRun | src/client.py:74-98 | the end recorded for the next episode is the end of the episode run from state 0 with the current table and ε on the remaining replies |
| Training.TrainAfter | src/client.py:100-116 | after an episode that consumed some steps, the rest of the loop keeps the same promises as Training.TrainFrom, counting that episode in |
| Training.DecayNShift | src/client.py:116 | one decay followed by n decays is n + 1 decays |
| Training.SuccessRate | src/client.py:124 | the rate lies in [0, 100]; it is 100 exactly when all runs succeeded and 0 exactly when none did |
| Training.Train | src/client.py:69-128 | one recorded end per episode; successes, deaths and timeouts each equal the number of episodes that ended with that status; the log's episode numbers are exactly those of the succeeded episodes, in increasing order; ε is the decay applied once per episode; the rate is `successes / episodes · 100` and lies in [0, 100]; it fails exactly when the episode loop from a zero tally, empty log and no recorded ends fails, and otherwise returns that loop's agent, counters, log and ends |
| Training.AlwaysSucceedsFrom | src/client.py:74-116 | when every reply is 300, every remaining episode is counted as a success and no death or timeout is counted |
| Training.AlwaysSucceedsLog | src/client.py:100-107 | when every reply is 300, each new log entry records a success at step 0 |
| Training.AlwaysSucceedsTraining | src/client.py:69-128 | an environment that always answers 300 gives 100% success with one single-step route per episode |
| Evaluation.TestEpisode | src/client.py:136-156 | a test run needs more replies exactly when every remaining one continues and the cap is not reached; a finished run makes at most 300 calls, all but the last continued, and it stops at the cap or at the first reply that does not continue; it succeeds exactly when that reply was 300; every action is the greedy one for the state it was taken in |
| Evaluation.NoTimeoutUnderCap | src/client.py:140-151 | below the 300-step cap a test never classifies as TIMEOUT |
| Evaluation.TestFrom | src/client.py:135-157 | the agent is unchanged; one run per remaining test, each with at most 300 calls; the first run is the test episode played on the replies from the start; successes grow by exactly the number of runs that succeeded; the calls used total at most the replies available |
| Evaluation.TestFromStep | src/client.py:135-157 | whatever the first test's length, the loop's runs are that test's run followed by the runs of the remaining tests on the replies after the ones it consumed, and the success count carries over |
| Evaluation.DecisiveStep | src/client.py:144-157 | when the first reply is a failure or a 300, the success count of all remaining tests is that of the tests after the first call, with the first test counted in |
| Evaluation.TestPolicy | src/client.py:130-161 | table and ε come back unchanged; one run per test, each with at most 300 calls, the first being the test episode on the replies from the start; successes equal the number of runs that succeeded, so at most the number of tests; the rate is `successes / tests · 100` and lies in [0, 100] |
| Evaluation.FirstReplyDecides | src/client.py:144-156 | a failure or a 300 as the first reply ends a test after one call, successful exactly when the reply was not a failure |
| Evaluation.UniformTests | src/client.py:135-157 | when every reply is the same decisive one, the tests add one success each if it is 300 and none if it is a failure |
| Evaluation.AllTestsSucceed | src/client.py:130-161 | an environment that answers 300 every time gives every test a success and a rate of 100 |
| Evaluation.AllTestsFail | src/client.py:130-161 | an environment whose every call fails gives no successes and a rate of 0 |

## Left out

- Sockets: `connect`, `send` and `recv` are replaced by the scripted replies and message sequences. Running out of script stands for the program blocking.
- `ast.literal_eval` is an abstract function from text to an optional map. Literals that are not mappings are not modelled. A list would make line 32 raise; a number would make the `in` test raise inside the retry loop.
- `float(...)` and `int(..., 2)` are abstract conversion functions. `ClientReply` takes them as `toState` and `toReward`; the table readers take the float conversion as `parse`.
- `random.random()` and `random.randint(0, 2)` become the `Draw` parameter of each training step.
- IEEE floating-point rounding in the update, the decay and the rates: all arithmetic is on `real`.
- File access in `load_or_create_table` and in `save_files`. The table reader takes the file's lines, or `None` when no readable file exists. Only the layout of the written table is modelled, in `Snapshot`. The route report (lines 165-171) is left out because it is never read back.
- Snapshot.Render: column padding and the three-decimal formatting are not modelled. Words are separated by single blanks, which the whitespace split treats the same as wider padding. Number printing is the abstract `show`.
- Console output (lines 118-125, 160) and the start-up block (lines 192-200).
- Training.RunEpisode: states outside 0..95 are excluded by a precondition. The program would raise `IndexError` on them, or wrap a negative state to a row from the end. The same precondition stands on `Training.Train` and `Evaluation.TestPolicy`. It also covers replies on terminal steps, whose next state the program never uses.
- Training.Train: starts from an empty route log, as a freshly constructed agent does. Routes left over from an earlier call on the same instance are not modelled.
- Training.Train and Evaluation.TestPolicy require at least one episode or test, because the final rate divides by that count.
- Training.Train: its result is the episode loop's final state, and the recorded end of each episode is tied to the episode run that produced it through `Training.FirstEndIsRun`, one loop state at a time. No closed form over the whole script, giving every episode's start offset, is stated.
- Evaluation.TestPolicy: the first run is stated to be the test episode on the replies from the start; each later run is tied to its test episode through `Evaluation.TestFromStep`, one test at a time. No closed form giving every test's start offset is stated.
- Training.Describe: the route entry is a record of platform, direction name and action label, not the formatted text `P<platform> <direction> -> <action>`.

## Findings

| source | as written | input that shows it | evidently intended | confidence | as-written member | corrected member |
|---|---|---|---|---|---|---|
| src/client.py:25 | the loader skips two lines and then converts every word of each line | any `q-table.md` written by `save_files` (lines 174-189): its third line is the column header, whose first word, a pipe character, does not convert, so the whole file is rejected | a table written at the end of a run is restored at the next start | high (not executed) | Snapshot.WrittenSnapshotIsRejected | Snapshot.SnapshotRoundTrip |

`Snapshot.LoadSnapshot` is the corrected reader. It skips the four lines before the table rows and takes the three value columns of each 13-word row. Its round trip is proved for any number format whose printed words convert back.

=== FILE: connection.dfy ===
/** The reply side of `get_state_reward`: normalisation of the localised
    field names and the receive loop that skips unparseable messages. The
    socket is replaced by the finite sequence of received messages and the
    literal parser by an abstract partial function `parse`. */
module Connection {
  import opened Options

  const StateKey := "state"
  const RewardKey := "reward"
  /** Localised (Portuguese) spelling of the state field. */
  const EstadoKey := "estado"
  /** Localised (Portuguese) spelling of the reward field. */
  const RecompensaKey := "recompensa"

  type Message<V> = map<string, V>

  /** Moves the value under `from` to `to`, when `from` is present. */
  function Rename<V>(m: Message<V>, from: string, to: string): (r: Message<V>)
    requires from != to
    ensures from in m ==> to in r && r[to] == m[from] && from !in r
    ensures from !in m ==> r == m
    ensures forall k :: k != from && k != to ==> (k in r <==> k in m) && (k in r ==> r[k] == m[k])
  {
    if from in m then (m - {from})[to := m[from]] else m
  }

  /** Lines 24-27: `estado` becomes `state`, then `recompensa` becomes `reward`. */
  function Normalise<V>(m: Message<V>): (r: Message<V>)
    ensures EstadoKey !in r && RecompensaKey !in r
    ensures EstadoKey in m ==> StateKey in r && r[StateKey] == m[EstadoKey]
    ensures EstadoKey !in m ==> (StateKey in r <==> StateKey in m) && (StateKey in m ==> r[StateKey] == m[StateKey])
    ensures RecompensaKey in m ==> RewardKey in r && r[RewardKey] == m[RecompensaKey]
    ensures RecompensaKey !in m ==> (RewardKey in r <==> RewardKey in m) && (RewardKey in m ==> r[RewardKey] == m[RewardKey])
    ensures forall k :: k != EstadoKey && k != StateKey && k != RecompensaKey && k != RewardKey ==>
              (k in r <==> k in m) && (k in r ==> r[k] == m[k])
  {
    Rename(Rename(m, EstadoKey, StateKey), RecompensaKey, RewardKey)
  }

  /** A message already in canonical form. */
  predicate Canonical<V>(m: Message<V>)
  {
    EstadoKey !in m && RecompensaKey !in m
  }

  /** Normalisation leaves canonical messages alone and produces them. */
  lemma NormaliseCanonical<V>(m: Message<V>)
    ensures Canonical(Normalise(m))
    ensures Canonical(m) ==> Normalise(m) == m
  {
  }

  /** Normalising twice is normalising once. */
  lemma NormaliseIdempotent<V>(m: Message<V>)
    ensures Normalise(Normalise(m)) == Normalise(m)
  {
    NormaliseCanonical(m);
    NormaliseCanonical(Normalise(m));
  }

  /** Position of the first message the parser accepts, if any. */
  function FirstParsed<V>(msgs: seq<string>, parse: string -> Option<Message<V>>): (r: Option<nat>)
    ensures r.Some? ==> r.value < |msgs| && parse(msgs[r.value]).Some?
    ensures r.Some? ==> forall j :: 0 <= j < r.value ==> parse(msgs[j]).None?
    ensures r.None? <==> forall j :: 0 <= j < |msgs| ==> parse(msgs[j]).None?
  {
    if msgs == [] then None
    else if parse(msgs[0]).Some? then Some(0)
    else match FirstParsed(msgs[1..], parse)
      case None => None
      case Some(i) => Some(i + 1)
  }

  /** What one call of `get_state_reward` ends with: the two canonical
      fields, a parsed message without them (the lookup at line 32 raises,
      outside the retry loop), or no parseable message at all (the program
      keeps receiving forever). `consumed` counts the messages read. */
  datatype Exchange<V> = Got(state: V, reward: V, consumed: nat) | MissingField(consumed: nat) | Blocked

  function GetStateReward<V>(msgs: seq<string>, parse: string -> Option<Message<V>>): (r: Exchange<V>)
    ensures r.Blocked? <==> forall j :: 0 <= j < |msgs| ==> parse(msgs[j]).None?
    ensures !r.Blocked? ==> 0 < r.consumed <= |msgs|
    ensures !r.Blocked? ==> forall j :: 0 <= j < r.consumed - 1 ==> parse(msgs[j]).None?
    ensures !r.Blocked? ==> parse(msgs[r.consumed - 1]).Some?
    ensures !r.Blocked? ==>
              var m := Normalise(parse(msgs[r.consumed - 1]).value);
              && (r.Got? <==> StateKey in m && RewardKey in m)
              && (r.Got? ==> r.state == m[StateKey] && r.reward == m[RewardKey])
  {
    match FirstParsed(msgs, parse)
    case None => Blocked
    case Some(i) =>
      var m := Normalise(parse(msgs[i]).value);
      if StateKey in m && RewardKey in m then Got(m[StateKey], m[RewardKey], i + 1)
      else MissingField(i + 1)
  }

  /** Unparseable messages in front of the reply do not change the outcome,
      only the number of messages read. */
  lemma SkipsGarbage<V>(junk: seq<string>, msgs: seq<string>, parse: string -> Option<Message<V>>)
    requires forall j :: 0 <= j < |junk| ==> parse(junk[j]).None?
    ensures var a, b := GetStateReward(junk + msgs, parse), GetStateReward(msgs, parse);
            match b
            case Got(s, w, n) => a == Got(s, w, n + |junk|)
            case MissingField(n) => a == MissingField(n + |junk|)
            case Blocked => a == Blocked
  {
    FirstParsedShift(junk, msgs, parse);
    match FirstParsed(msgs, parse)
    case None =>
    case Some(i) =>
      var all := junk + msgs;
      assert all[i + |junk|] == msgs[i];
      var m := Normalise(parse(msgs[i]).value);
      var n := i + |junk| + 1;
      assert GetStateReward(all, parse)
          == if StateKey in m && RewardKey in m then Got(m[StateKey], m[RewardKey], n) else MissingField(n);
  }

  lemma FirstParsedShift<V>(junk: seq<string>, msgs: seq<string>, parse: string -> Option<Message<V>>)
    requires forall j :: 0 <= j < |junk| ==> parse(junk[j]).None?
    ensures match FirstParsed(msgs, parse)
            case None => FirstParsed(junk + msgs, parse) == None
            case Some(i) => FirstParsed(junk + msgs, parse) == Some(i + |junk|)
  {
    var all := junk + msgs;
    assert forall j :: 0 <= j < |msgs| ==> all[j + |junk|] == msgs[j];
    match FirstParsed(msgs, parse)
    case None =>
      assert forall j :: 0 <= j < |all| ==> parse(all[j]).None? by {
        forall j | 0 <= j < |all| ensures parse(all[j]).None? {
          if j >= |junk| { assert all[j] == msgs[j - |junk|]; }
        }
      }
    case Some(i) =>
      var f := FirstParsed(all, parse);
      assert parse(all[i + |junk|]).Some?;
      assert f.Some?;
  }
}

=== FILE: episode.dfy ===
/** Classification of a step's reward and step count into the episode's
    terminal statuses, in the client's priority order. */
module Episode {

  /** Reward that signals reaching the goal. */
  const SuccessReward: real := 300.0
  /** Reward that signals the agent died. */
  const DeathReward: real := -100.0
  /** Step count (counted before the current step) at which training gives up. */
  const StepBudget: nat := 500

  datatype Status = Success | Death | Timeout | Continue

  /** `is_episode_finished(reward, steps)`: success first, then death, then
      the step budget; `done` is the flag the caller loops on. */
  function Classify(reward: real, steps: nat): (r: (bool, Status))
    ensures r.0 <==> r.1 != Continue
    ensures r.1 == Success <==> reward == SuccessReward
    ensures r.1 == Death <==> reward != SuccessReward && reward == DeathReward
    ensures r.1 == Timeout <==> reward != SuccessReward && reward != DeathReward && steps >= StepBudget
  {
    if reward == SuccessReward then (true, Success)
    else if reward == DeathReward then (true, Death)
    else if steps >= StepBudget then (true, Timeout)
    else (false, Continue)
  }

  /** The success reward wins at every step count, even past the budget. */
  lemma SuccessIgnoresSteps(steps: nat, other: nat)
    ensures Classify(SuccessReward, steps) == Classify(SuccessReward, other) == (true, Success)
  {
  }

  /** The death reward is terminal from the very first step. */
  lemma DeathAtStepZero()
    ensures Classify(DeathReward, 0) == (true, Death)
  {
  }

  /** Once a reward times out, it times out at every later step count, and
      a non-terminal reward continues at every count below the budget. */
  lemma TimeoutIsMonotone(reward: real, steps: nat, later: nat)
    requires steps <= later
    ensures Classify(reward, steps).1 == Timeout ==> Classify(reward, later).1 == Timeout
    ensures Classify(reward, later).1 == Continue ==> Classify(reward, steps).1 == Continue
  {
  }

  /** A reward of 5 at step 10 keeps the episode running. */
  lemma OrdinaryRewardContinues()
    ensures Classify(5.0, 10) == (false, Continue)
  {
  }
}

=== FILE: evaluation.dfy ===
/** `test_policy`: greedy runs against a scripted environment with no table
    writes and at most 300 environment steps per test. Epsilon is set to 0
    for the duration and restored; the model's agent is returned as it came
    in. A script that runs out stands for an environment that never
    answers, and the model then returns None. */
module Evaluation {
  import opened Options
  import opened QTable
  import opened Policy
  import opened Episode
  import opened Training

  /** Step cap of one evaluation run. */
  const TestStepCap: nat := 300

  predicate ValidReplies(replies: seq<Reply>)
  {
    forall i :: 0 <= i < |replies| ==> ValidReply(replies[i])
  }

  /** One evaluation run: whether it succeeded and the actions it sent. */
  datatype TestRun = TestRun(success: bool, actions: seq<nat>)

  /** Every reply lets a test at `steps` continue. */
  predicate TestsContinue(replies: seq<Reply>, steps: nat)
  {
    forall i :: 0 <= i < |replies| ==> Continues(replies[i], steps + i)
  }

  /** How a finished test run relates to the replies from step `steps` on:
      it stopped at the cap or at the first reply that does not continue,
      succeeded exactly when that reply is the success reward, and sent the
      greedy action of each state it stood in. */
  predicate TestConsistent(t: Table, state: int, steps: nat, replies: seq<Reply>, run: TestRun)
    requires WellFormed(t) && ValidState(state) && ValidReplies(replies)
  {
    var n := |run.actions|;
    && n <= TestStepCap - steps
    && n <= |replies|
    && (forall i :: 0 <= i < n - 1 ==> Continues(replies[i], steps + i))
    && (n == TestStepCap - steps || (n > 0 && !Continues(replies[n - 1], steps + n - 1)))
    && (run.success <==> n > 0 && replies[n - 1].Reply? && replies[n - 1].reward == SuccessReward)
    && (n > 0 ==> IsFirstMax(t[state], run.actions[0]))
    && (forall i :: 0 <= i < n - 1 ==> IsFirstMax(t[replies[i].next], run.actions[i + 1]))
  }

  lemma TestsContinueStep(replies: seq<Reply>, steps: nat)
    requires |replies| > 0
    ensures TestsContinue(replies, steps) <==> Continues(replies[0], steps) && TestsContinue(replies[1..], steps + 1)
  {
    assert forall i :: 0 <= i < |replies| - 1 ==> replies[1..][i] == replies[i + 1];
    if Continues(replies[0], steps) && TestsContinue(replies[1..], steps + 1) {
      forall i | 0 < i < |replies|
        ensures Continues(replies[i], steps + i)
      {
        assert replies[i] == replies[1..][i - 1];
      }
    }
  }

  lemma TestConsistentStep(t: Table, state: int, steps: nat, replies: seq<Reply>, run: TestRun, a: nat)
    requires WellFormed(t) && ValidState(state) && ValidReplies(replies) && |replies| > 0
    requires Continues(replies[0], steps) && IsFirstMax(t[state], a)
    requires ValidReplies(replies[1..])
    requires TestConsistent(t, replies[0].next, steps + 1, replies[1..], run)
    ensures TestConsistent(t, state, steps, replies, TestRun(run.success, [a] + run.actions))
  {
    var rest := replies[1..];
    assert forall i :: 0 <= i < |rest| ==> rest[i] == replies[i + 1];
    var acts := [a] + run.actions;
    assert forall i :: 0 < i < |acts| ==> acts[i] == run.actions[i - 1];
    var n := |acts|;
    if n > 1 {
      assert replies[n - 1] == rest[n - 2];
    }
    forall i | 0 < i < n - 1
      ensures IsFirstMax(t[replies[i].next], acts[i + 1])
    {
      assert replies[i] == rest[i - 1];
    }
  }

  /** The loop of lines 140-156 from `state` after `steps` steps: it stops
      at the cap, at a failed call or at a terminal reply, and blocks (None)
      only when the replies run out before any of these. */
  function TestEpisode(t: Table, state: int, steps: nat, replies: seq<Reply>): (r: Option<TestRun>)
    requires WellFormed(t) && ValidState(state) && ValidReplies(replies) && steps <= TestStepCap
    ensures r.None? <==> |replies| < TestStepCap - steps && TestsContinue(replies, steps)
    ensures r.Some? ==> TestConsistent(t, state, steps, replies, r.value)
    decreases TestStepCap - steps
  {
    if steps >= TestStepCap then Some(TestRun(false, []))
    else if replies == [] then None
    else
      var a := BestAction(t, state);
      TestsContinueStep(replies, steps);
      match replies[0]
      case Failure => Some(TestRun(false, [a]))
      case Reply(next, reward) =>
        var (done, status) := Classify(reward, steps);
        if done then Some(TestRun(status == Success, [a]))
        else
          assert ValidReplies(replies[1..]) by {
            assert forall i :: 0 <= i < |replies| - 1 ==> replies[1..][i] == replies[1 + i];
          }
          match TestEpisode(t, next, steps + 1, replies[1..])
          case None => None
          case Some(run) =>
            TestConsistentStep(t, state, steps, replies, run, a);
            Some(TestRun(run.success, [a] + run.actions))
  }

  /** No evaluation run ends by the training budget: the cap of 300 stops
      it before the step count reaches 500. */
  lemma NoTimeoutUnderCap(reward: real, steps: nat)
    requires steps < TestStepCap
    ensures Classify(reward, steps).1 != Timeout
  {
  }

  /** Number of successful runs. */
  function CountSuccesses(runs: seq<TestRun>): (n: nat)
    ensures n <= |runs|
  {
    if runs == [] then 0 else (if runs[0].success then 1 else 0) + CountSuccesses(runs[1..])
  }

  /** The tests run, the success counter and the replies consumed. */
  datatype Evaluation = Evaluation(agent: Agent, runs: seq<TestRun>, successes: nat, used: nat)

  /** Tests `done + 1 .. numTests` from `successes` successes so far; the
      counter ends up as the number of successful runs among them. */
  function TestFrom(agent: Agent, numTests: nat, done: nat, successes: nat, replies: seq<Reply>): (r: Option<Evaluation>)
    requires WellFormed(agent.table) && ValidReplies(replies) && done <= numTests && successes <= done
    ensures r.Some? ==> r.value.agent == agent
    ensures r.Some? ==> |r.value.runs| == numTests - done
    ensures r.Some? ==> r.value.successes == successes + CountSuccesses(r.value.runs)
    ensures r.Some? ==> successes <= r.value.successes <= successes + (numTests - done)
    ensures r.Some? ==> r.value.used <= |replies| && r.value.used <= TestStepCap * (numTests - done)
    ensures r.Some? ==> forall k :: 0 <= k < |r.value.runs| ==> |r.value.runs[k].actions| <= TestStepCap
    ensures r.Some? && done < numTests ==>
              && TestEpisode(agent.table, 0, 0, replies).Some?
              && r.value.runs[0] == TestEpisode(agent.table, 0, 0, replies).value
    decreases numTests - done
  {
    if done == numTests then Some(Evaluation(agent, [], successes, 0))
    else
      match TestEpisode(agent.table, 0, 0, replies)
      case None => None
      case Some(run) =>
        var n := |run.actions|;
        assert ValidReplies(replies[n..]) by {
          assert forall i :: 0 <= i < |replies| - n ==> replies[n..][i] == replies[n + i];
        }
        match TestFrom(agent, numTests, done + 1, successes + (if run.success then 1 else 0), replies[n..])
        case None => None
        case Some(ev) =>
          assert ([run] + ev.runs)[1..] == ev.runs;
          Some(ev.(runs := [run] + ev.runs, used := ev.used + n))
  }

  /** The agent after testing, the runs in order, the success counter and
      the rate. */
  datatype TestReport = TestReport(agent: Agent, runs: seq<TestRun>, successes: nat, rate: real)

  /** `test_policy`: the agent (table and epsilon) comes back unchanged, one
      run per test, the counter is the number of runs that succeeded and the
      rate is its percentage. */
  function TestPolicy(agent: Agent, numTests: nat, replies: seq<Reply>): (r: Option<TestReport>)
    requires WellFormed(agent.table) && ValidReplies(replies) && numTests > 0
    ensures r.Some? ==> r.value.agent == agent
    ensures r.Some? ==> |r.value.runs| == numTests && r.value.successes == CountSuccesses(r.value.runs)
    ensures r.Some? ==> r.value.successes <= numTests && 0.0 <= r.value.rate <= 100.0
    ensures r.Some? ==> r.value.rate == SuccessRate(r.value.successes, numTests)
    ensures r.Some? ==> forall k :: 0 <= k < |r.value.runs| ==> |r.value.runs[k].actions| <= TestStepCap
    ensures r.Some? ==>
              && TestEpisode(agent.table, 0, 0, replies).Some?
              && r.value.runs[0] == TestEpisode(agent.table, 0, 0, replies).value
  {
    match TestFrom(agent, numTests, 0, 0, replies)
    case None => None
    case Some(ev) => Some(TestReport(ev.agent, ev.runs, ev.successes, SuccessRate(ev.successes, numTests)))
  }

  // -----------------------------------------------------------------------
  // Environments that answer every call the same way

  /** A reply that ends a test at its first call: a failure or the success
      reward. */
  predicate Decisive(x: Reply)
  {
    x.Failure? || x.reward == SuccessReward
  }

  lemma FirstReplyDecides(t: Table, replies: seq<Reply>)
    requires WellFormed(t) && ValidReplies(replies) && |replies| > 0 && Decisive(replies[0])
    ensures TestEpisode(t, 0, 0, replies).Some?
    ensures |TestEpisode(t, 0, 0, replies).value.actions| == 1
    ensures TestEpisode(t, 0, 0, replies).value.success == replies[0].Reply?
  {
  }

  /** A test whose first reply is decisive uses one call and succeeds
      exactly when that reply is a reward, so the count of the remaining
      tests carries over with that one added. */
  lemma DecisiveStep(agent: Agent, numTests: nat, done: nat, successes: nat, replies: seq<Reply>, x: Reply, total: nat)
    requires WellFormed(agent.table) && ValidReplies(replies) && done < numTests && successes <= done
    requires |replies| > 0 && replies[0] == x && Decisive(x)
    requires var rest := TestFrom(agent, numTests, done + 1, successes + (if x.Reply? then 1 else 0), replies[1..]);
             rest.Some? && rest.value.successes == total
    ensures TestFrom(agent, numTests, done, successes, replies).Some?
    ensures TestFrom(agent, numTests, done, successes, replies).value.successes == total
  {
    FirstReplyDecides(agent.table, replies);
    var run := TestEpisode(agent.table, 0, 0, replies).value;
    assert replies[|run.actions|..] == replies[1..];
    TestFromStep(agent, numTests, done, successes, replies, run);
  }

  /** When every reply is the same decisive one, each test uses one call and
      succeeds exactly when that reply is the success reward. */
  lemma {:induction false} UniformTests(agent: Agent, numTests: nat, done: nat, successes: nat,
                                        replies: seq<Reply>, x: Reply)
    requires WellFormed(agent.table) && ValidReplies(replies) && done <= numTests && successes <= done
    requires Decisive(x) && |replies| >= numTests - done
    requires forall i :: 0 <= i < |replies| ==> replies[i] == x
    ensures TestFrom(agent, numTests, done, successes, replies).Some?
    ensures TestFrom(agent, numTests, done, successes, replies).value.successes
         == successes + (if x.Reply? then numTests - done else 0)
    decreases numTests - done
  {
    if done < numTests {
      var rest := replies[1..];
      assert forall i :: 0 <= i < |rest| ==> rest[i] == replies[i + 1];
      assert ValidReplies(rest) && forall i :: 0 <= i < |rest| ==> rest[i] == x;
      var next := successes + (if x.Reply? then 1 else 0);
      UniformTests(agent, numTests, done + 1, next, rest, x);
      var total := successes + (if x.Reply? then numTests - done else 0);
      assert next + (if x.Reply? then numTests - (done + 1) else 0) == total;
      DecisiveStep(agent, numTests, done, successes, replies, x, total);
    }
  }

  /** One unfolding of the test loop: the first test runs on the replies
      from the start, and the remaining tests read the replies after the
      ones it consumed. */
  lemma TestFromStep(agent: Agent, numTests: nat, done: nat, successes: nat, replies: seq<Reply>, run: TestRun)
    requires WellFormed(agent.table) && ValidReplies(replies) && done < numTests && successes <= done
    requires TestEpisode(agent.table, 0, 0, replies) == Some(run)
    requires ValidReplies(replies[|run.actions|..])
    ensures var rest := TestFrom(agent, numTests, done + 1, successes + (if run.success then 1 else 0),
                                 replies[|run.actions|..]);
            && TestFrom(agent, numTests, done, successes, replies).Some? == rest.Some?
            && (rest.Some? ==> TestFrom(agent, numTests, done, successes, replies).value.runs == [run] + rest.value.runs)
            && (rest.Some? ==> TestFrom(agent, numTests, done, successes, replies).value.successes == rest.value.successes)
  {
  }

  /** An environment that rewards every first step gives a 100% test rate. */
  lemma AllTestsSucceed(agent: Agent, numTests: nat, replies: seq<Reply>)
    requires WellFormed(agent.table) && ValidReplies(replies) && numTests > 0 && |replies| >= numTests
    requires forall i :: 0 <= i < |replies| ==> replies[i].Reply? && replies[i] == replies[0]
    requires replies[0].reward == SuccessReward
    ensures TestPolicy(agent, numTests, replies).Some?
    ensures TestPolicy(agent, numTests, replies).value.successes == numTests
    ensures TestPolicy(agent, numTests, replies).value.rate == 100.0
  {
    UniformTests(agent, numTests, 0, 0, replies, replies[0]);
  }

  /** An environment whose every call fails gives a 0% test rate. */
  lemma AllTestsFail(agent: Agent, numTests: nat, replies: seq<Reply>)
    requires WellFormed(agent.table) && ValidReplies(replies) && numTests > 0 && |replies| >= numTests
    requires forall i :: 0 <= i < |replies| ==> replies[i].Failure?
    ensures TestPolicy(agent, numTests, replies).Some?
    ensures TestPolicy(agent, numTests, replies).value.successes == 0
    ensures TestPolicy(agent, numTests, replies).value.rate == 0.0
  {
    assert forall i :: 0 <= i < |replies| ==> replies[i] == Failure;
    UniformTests(agent, numTests, 0, 0, replies, Failure);
  }
}

=== FILE: options.dfy ===
/** The optional value used wherever the modelled program either produces a
    value or gives up (an exception it swallows, an environment that never
    answers). */
module Options {

  datatype Option<+T> = None | Some(value: T)

}

=== FILE: policy.dfy ===
/** Epsilon-greedy action selection and the per-episode epsilon decay. The
    random draws of the client (`random.random()` and `random.randint(0, 2)`)
    are passed in as a `Draw`. */
module Policy {
  import opened QTable

  /** Exploration never drops below this value. */
  const EpsilonFloor: real := 0.01

  /** The learner's mutable state: its table and its current epsilon. */
  datatype Agent = Agent(table: Table, epsilon: real)

  /** One pair of random draws: the exploration coin in [0, 1) and the
      uniformly drawn action used when exploring. */
  datatype Draw = Draw(coin: real, pick: nat)

  predicate ValidDraw(d: Draw)
  {
    0.0 <= d.coin < 1.0 && d.pick < NumActions
  }

  /** `choose_action`: explore with the drawn action when the coin falls
      below epsilon, otherwise exploit the table's greedy action. */
  function Choose(t: Table, s: int, epsilon: real, d: Draw): (a: nat)
    requires WellFormed(t) && ValidState(s) && ValidDraw(d)
    ensures ValidAction(a)
    ensures d.coin < epsilon ==> a == d.pick
    ensures epsilon <= d.coin ==> IsFirstMax(t[s], a)
  {
    if d.coin < epsilon then d.pick else BestAction(t, s)
  }

  /** With epsilon 0 the coin never falls below it: selection is the pure
      greedy lookup the evaluation loop performs directly. */
  lemma ZeroEpsilonIsGreedy(t: Table, s: int, d: Draw)
    requires WellFormed(t) && ValidState(s) && ValidDraw(d)
    ensures Choose(t, s, 0.0, d) == BestAction(t, s)
  {
  }

  /** One decay step, `max(epsilon * decay, 0.01)`. */
  function Decay(epsilon: real, factor: real): (e: real)
    ensures e >= EpsilonFloor
    ensures e >= epsilon * factor
    ensures e == epsilon * factor || e == EpsilonFloor
  {
    if EpsilonFloor > epsilon * factor then EpsilonFloor else epsilon * factor
  }

  /** Epsilon after `n` episodes, one decay step per episode. */
  function DecayN(epsilon: real, factor: real, n: nat): real
  {
    if n == 0 then epsilon else Decay(DecayN(epsilon, factor, n - 1), factor)
  }

  /** From a value at or above the floor and with a factor in [0, 1], one
      decay step never increases epsilon. */
  lemma DecayNeverIncreases(epsilon: real, factor: real)
    requires epsilon >= EpsilonFloor && 0.0 <= factor <= 1.0
    ensures EpsilonFloor <= Decay(epsilon, factor) <= epsilon
  {
    assert epsilon * factor <= epsilon by {
      assert epsilon * (1.0 - factor) >= 0.0;
    }
  }

  /** Over any number of episodes epsilon stays at or above the floor and
      never increases from one episode to the next. */
  lemma {:induction false} DecayNMonotone(epsilon: real, factor: real, n: nat)
    requires epsilon >= EpsilonFloor && 0.0 <= factor <= 1.0
    ensures EpsilonFloor <= DecayN(epsilon, factor, n + 1) <= DecayN(epsilon, factor, n) <= epsilon
  {
    if n == 0 {
      DecayNeverIncreases(epsilon, factor);
    } else {
      DecayNMonotone(epsilon, factor, n - 1);
      DecayNeverIncreases(DecayN(epsilon, factor, n), factor);
    }
  }
}

=== FILE: qtable.dfy ===
/** The Q-value table of the learning agent: 96 discretised states by 3
    actions, the decoding of a state number into platform and direction,
    greedy (first-maximum) lookup and the one-step Q-learning update. */
module QTable {

  const NumStates: nat := 96
  const NumActions: nat := 3
  /** Optimistic value every cell holds when no snapshot is accepted. */
  const InitialValue: real := 0.1

  /** Action labels, indexed by the action number sent to the environment. */
  const ActionNames: seq<string> := ["left", "right", "jump"]
  /** Compass names of the four directions a state can encode. */
  const DirectionNames: seq<string> := ["Norte", "Leste", "Sul", "Oeste"]

  type Row = seq<real>
  type Table = seq<Row>

  predicate ValidState(s: int) { 0 <= s < NumStates }

  predicate ValidAction(a: int) { 0 <= a < NumActions }

  /** The table has exactly one row of three values per state. */
  predicate WellFormed(t: Table)
  {
    |t| == NumStates && forall s :: 0 <= s < |t| ==> |t[s]| == NumActions
  }

  /** The table used when no stored snapshot is accepted. */
  function Default(): (t: Table)
    ensures WellFormed(t)
    ensures forall s, a :: 0 <= s < NumStates && 0 <= a < NumActions ==> t[s][a] == InitialValue
  {
    seq(NumStates, _ => seq(NumActions, _ => InitialValue))
  }

  // ---------------------------------------------------------------------
  // State decoding

  datatype StateInfo = StateInfo(platform: int, direction: nat, name: string)

  /** Splits a state number into its platform (`state >> 2`) and its
      direction (`state & 0b11`). For the positive divisor 4, the arithmetic
      right shift and the mask are floor division and the non-negative
      remainder, which are exactly Dafny's `/` and `%` on `int`. */
  function DecodeState(state: int): (r: StateInfo)
    ensures r.direction < |DirectionNames|
    ensures r.platform * 4 + r.direction == state
    ensures r.name == DirectionNames[r.direction]
  {
    var d := state % 4;
    StateInfo(state / 4, d, DirectionNames[d])
  }

  /** The inverse of decoding: a platform and a direction give back a state. */
  function EncodeState(platform: int, direction: nat): int
  {
    platform * 4 + direction
  }

  /** Decoding is lossless: encoding the decoded parts gives the state back. */
  lemma DecodeEncode(state: int)
    ensures EncodeState(DecodeState(state).platform, DecodeState(state).direction) == state
  {
  }

  /** Encoding a platform and a valid direction decodes to the same parts. */
  lemma EncodeDecode(platform: int, direction: nat)
    requires direction < 4
    ensures DecodeState(EncodeState(platform, direction)).platform == platform
    ensures DecodeState(EncodeState(platform, direction)).direction == direction
  {
  }

  // ---------------------------------------------------------------------
  // Greedy lookup

  /** The largest value of a non-empty row, found left to right the way a
      running maximum that only replaces on a strictly larger value does. */
  function Max(row: Row): (m: real)
    requires |row| > 0
    ensures exists i :: 0 <= i < |row| && row[i] == m
    ensures forall j :: 0 <= j < |row| ==> row[j] <= m
  {
    if |row| == 1 then row[0]
    else
      var m := Max(row[..|row| - 1]);
      assert forall j :: 0 <= j < |row| - 1 ==> row[..|row| - 1][j] == row[j];
      if row[|row| - 1] > m then row[|row| - 1] else m
  }

  /** Position of the first occurrence of `v` in `row`. */
  function IndexOf(row: Row, v: real): (i: nat)
    requires exists k :: 0 <= k < |row| && row[k] == v
    ensures i < |row| && row[i] == v
    ensures forall k :: 0 <= k < i ==> row[k] != v
  {
    if row[0] == v then 0
    else
      assert exists k :: 0 <= k < |row[1..]| && row[1..][k] == v by {
        var k :| 0 <= k < |row| && row[k] == v;
        assert row[1..][k - 1] == v;
      }
      1 + IndexOf(row[1..], v)
  }

  /** `i` is a greedy choice for `row`: its value is maximal and no earlier
      position holds a value that large. */
  predicate IsFirstMax(row: Row, i: int)
  {
    && 0 <= i < |row|
    && (forall j :: 0 <= j < |row| ==> row[j] <= row[i])
    && (forall k :: 0 <= k < i ==> row[k] < row[i])
  }

  /** `row.index(max(row))`: the first position of the row's maximum. */
  function Greedy(row: Row): (i: nat)
    requires |row| > 0
    ensures IsFirstMax(row, i)
  {
    IndexOf(row, Max(row))
  }

  /** There is only one first maximum, so greedy selection is determined by
      the row alone. */
  lemma FirstMaxUnique(row: Row, i: int, j: int)
    requires IsFirstMax(row, i) && IsFirstMax(row, j)
    ensures i == j
  {
    assert row[i] <= row[j] && row[j] <= row[i];
  }

  /** A row of equal values always gives the first action. */
  lemma GreedyTieBreak(row: Row)
    requires |row| > 0
    requires forall j :: 0 <= j < |row| ==> row[j] == row[0]
    ensures Greedy(row) == 0
  {
  }

  /** Greedy action of a state of a well-formed table. */
  function BestAction(t: Table, s: int): (a: nat)
    requires WellFormed(t) && ValidState(s)
    ensures ValidAction(a)
    ensures IsFirstMax(t[s], a)
  {
    Greedy(t[s])
  }

  // ---------------------------------------------------------------------
  // Q-update

  /** The bootstrapped target: the reward plus the discounted best value of
      the next state, which a terminal step replaces by 0. */
  function Target(t: Table, reward: real, next: int, done: bool, gamma: real): real
    requires WellFormed(t) && (done || ValidState(next))
  {
    reward + gamma * (if done then 0.0 else Max(t[next]))
  }

  /** `update_q_table`: moves cell (s, a) a fraction `alpha` of the way to
      the target and writes no other cell. */
  function Update(t: Table, s: int, a: int, reward: real, next: int, done: bool,
                  alpha: real, gamma: real): (r: Table)
    requires WellFormed(t) && ValidState(s) && ValidAction(a)
    requires done || ValidState(next)
    ensures WellFormed(r)
    ensures r[s][a] - t[s][a] == alpha * (Target(t, reward, next, done, gamma) - t[s][a])
    ensures forall s', a' :: 0 <= s' < NumStates && 0 <= a' < NumActions && (s' != s || a' != a) ==>
              r[s'][a'] == t[s'][a']
  {
    var current := t[s][a];
    var v := current + alpha * (Target(t, reward, next, done, gamma) - current);
    t[s := t[s][a := v]]
  }

  /** A terminal step never reads the next state's row: any two next states
      give the same table. */
  lemma TerminalIgnoresNextState(t: Table, s: int, a: int, reward: real, n1: int, n2: int,
                                 alpha: real, gamma: real)
    requires WellFormed(t) && ValidState(s) && ValidAction(a)
    ensures Update(t, s, a, reward, n1, true, alpha, gamma) == Update(t, s, a, reward, n2, true, alpha, gamma)
  {
    TerminalUpdate(t, s, a, reward, n1, alpha, gamma);
    TerminalUpdate(t, s, a, reward, n2, alpha, gamma);
  }

  /** A terminal update moves the cell towards the reward alone. */
  lemma TerminalUpdate(t: Table, s: int, a: int, reward: real, next: int, alpha: real, gamma: real)
    requires WellFormed(t) && ValidState(s) && ValidAction(a)
    ensures Update(t, s, a, reward, next, true, alpha, gamma) == t[s := t[s][a := t[s][a] + alpha * (reward - t[s][a])]]
  {
    var v := t[s][a] + alpha * (reward - t[s][a]);
    assert Target(t, reward, next, true, gamma) == reward;
    var r := Update(t, s, a, reward, next, true, alpha, gamma);
    assert r[s][a] == v;
    assert forall s' :: 0 <= s' < NumStates ==> r[s'] == t[s := t[s][a := v]][s'];
  }

  /** With a learning rate in [0, 1] the new value lies between the old value
      and the target; a rate of 1 replaces the value by the target. */
  lemma UpdateMovesTowardTarget(t: Table, s: int, a: int, reward: real, next: int, done: bool,
                                alpha: real, gamma: real)
    requires WellFormed(t) && ValidState(s) && ValidAction(a)
    requires done || ValidState(next)
    requires 0.0 <= alpha <= 1.0
    ensures var v := Update(t, s, a, reward, next, done, alpha, gamma)[s][a];
            var target := Target(t, reward, next, done, gamma);
            (t[s][a] <= target ==> t[s][a] <= v <= target) &&
            (target <= t[s][a] ==> target <= v <= t[s][a])
    ensures alpha == 1.0 ==> Update(t, s, a, reward, next, done, alpha, gamma)[s][a] == Target(t, reward, next, done, gamma)
  {
    var target := Target(t, reward, next, done, gamma);
    var d := target - t[s][a];
    var v := Update(t, s, a, reward, next, done, alpha, gamma)[s][a];
    assert v == t[s][a] + alpha * d;
    if d >= 0.0 {
      assert alpha * d <= d by { assert (1.0 - alpha) * d >= 0.0; }
    } else {
      assert alpha * d >= d by { assert (1.0 - alpha) * d <= 0.0; }
    }
  }

  /** The worked example: from the initial value, with rate 0.1 and discount
      0.97, a terminal reward of 300 gives 30.09. */
  lemma UpdateExample(t: Table, s: int, a: int, next: int)
    requires WellFormed(t) && ValidState(s) && ValidAction(a)
    requires t[s][a] == InitialValue
    ensures Update(t, s, a, 300.0, next, true, 0.1, 0.97)[s][a] == 30.09
  {
  }
}

=== FILE: snapshot.dfy ===
/** The table snapshot the program writes at the end of training (a
    Markdown table after a title and a blank line) and its warm-start
    reading. As written, the loader skips only two lines, so the column
    header is the first line it converts, and its `|` is no number: every
    snapshot the program writes is rejected and the run restarts from the
    uniform table. `LoadSnapshot` is the reader for the format actually
    written, with its round trip proved. Column padding is not modelled:
    words are separated by single blanks, which the whitespace split cannot
    tell apart from wider padding. */
module Snapshot {
  import opened Options
  import opened QTable
  import opened TableLoad

  /** Words separated by single blanks, ending in a newline. */
  function Join(ws: seq<string>): string
  {
    if ws == [] then "\n"
    else if |ws| == 1 then ws[0] + "\n"
    else ws[0] + " " + Join(ws[1..])
  }

  /** Splitting a joined line gives back its words. */
  lemma {:induction false} WordsOfJoin(ws: seq<string>)
    requires forall k :: 0 <= k < |ws| ==> IsWord(ws[k])
    ensures Words(Join(ws)) == ws
  {
    if ws == [] {
      assert Join(ws) == [] + ['\n'] + [];
      WordsSplit([], '\n', []);
    } else if |ws| == 1 {
      assert Join(ws) == ws[0] + ['\n'] + [];
      WordsSplit(ws[0], '\n', []);
      WordsOfWord(ws[0]);
    } else {
      assert Join(ws) == ws[0] + [' '] + Join(ws[1..]);
      WordsSplit(ws[0], ' ', Join(ws[1..]));
      WordsOfWord(ws[0]);
      WordsOfJoin(ws[1..]);
    }
  }

  function DigitChar(d: nat): (c: char)
    requires d < 10
    ensures !IsSpace(c)
  {
    "0123456789"[d]
  }

  /** Decimal spelling of a natural number. */
  function NatToString(n: nat): (s: string)
    ensures IsWord(s)
  {
    if n < 10 then [DigitChar(n)] else NatToString(n / 10) + [DigitChar(n % 10)]
  }

  const Title := "# Q-Table\n"
  const ColumnNames: seq<string> := ["|", "Estado", "|", "Left", "|", "Right", "|", "Jump", "|", "Plataforma", "|", "Direção", "|"]
  const Rule := "|--------|------|-------|------|------------|----------|\n"

  /** Number of lines before the first table row in a written snapshot. */
  const HeaderLines: nat := 4

  /** The words of the row written for state `s`; `show` is the number
      formatting. */
  function RowWords(t: Table, show: real -> string, s: nat): seq<string>
    requires WellFormed(t) && ValidState(s)
  {
    var info := DecodeState(s);
    ["|", NatToString(s), "|", show(t[s][0]), "|", show(t[s][1]), "|", show(t[s][2]),
     "|", NatToString(info.platform), "|", info.name, "|"]
  }

  /** The table rows of the snapshot, one line per state. */
  function RowLines(t: Table, show: real -> string): (lines: seq<string>)
    requires WellFormed(t)
    ensures |lines| == NumStates
    ensures forall s :: 0 <= s < NumStates ==> lines[s] == Join(RowWords(t, show, s))
  {
    seq(NumStates, s requires 0 <= s < NumStates => Join(RowWords(t, show, s)))
  }

  /** The lines of the snapshot file the program writes for `t`. */
  function Render(t: Table, show: real -> string): (lines: seq<string>)
    requires WellFormed(t)
    ensures |lines| == HeaderLines + NumStates
    ensures lines[2] == Join(ColumnNames)
    ensures lines[HeaderLines..] == RowLines(t, show)
  {
    [Title, "\n", Join(ColumnNames), Rule] + RowLines(t, show)
  }

  /** Every value of `t` prints as one word that converts back to a number. */
  predicate Printable(t: Table, show: real -> string, parse: string -> Option<real>)
    requires WellFormed(t)
  {
    forall s, a :: 0 <= s < NumStates && 0 <= a < NumActions ==>
      IsWord(show(t[s][a])) && parse(show(t[s][a])).Some?
  }

  /** The table as written and re-read: every value through its printed
      form and back. */
  function Reread(t: Table, show: real -> string, parse: string -> Option<real>): (r: Table)
    requires WellFormed(t) && Printable(t, show, parse)
    ensures WellFormed(r)
    ensures forall s, a :: 0 <= s < NumStates && 0 <= a < NumActions ==> r[s][a] == parse(show(t[s][a])).value
  {
    seq(NumStates, s requires 0 <= s < NumStates =>
      seq(NumActions, a requires 0 <= a < NumActions => parse(show(t[s][a])).value))
  }

  // -----------------------------------------------------------------------
  // The loader as written rejects every written snapshot

  /** Whatever the table, the snapshot the program writes is rejected by
      `load_or_create_table` as soon as `|` fails to convert to a number, as
      it does for the float conversion. */
  lemma WrittenSnapshotIsRejected(t: Table, show: real -> string, parse: string -> Option<real>)
    requires WellFormed(t)
    requires parse("|").None?
    ensures LoadOrCreate(Some(Render(t, show)), parse) == Default()
  {
    var lines := Render(t, show);
    var body := Body(lines);
    assert body[0] == Join(ColumnNames);
    ColumnHeaderDoesNotConvert(parse);
  }

  lemma ColumnHeaderDoesNotConvert(parse: string -> Option<real>)
    requires parse("|").None?
    ensures !LineConverts(Join(ColumnNames), parse)
  {
    assert forall k :: 0 <= k < |ColumnNames| ==> IsWord(ColumnNames[k]);
    WordsOfJoin(ColumnNames);
  }

  // -----------------------------------------------------------------------
  // A loader for the format written

  /** Row read from one line of the written table: outer None when a value
      cell does not convert, inner None for lines that are not table rows. */
  function RowOf(line: string, parse: string -> Option<real>): Option<Option<Row>>
  {
    var ws := Words(line);
    if |ws| != |ColumnNames| then Some(None)
    else match (parse(ws[3]), parse(ws[5]), parse(ws[7]))
      case (Some(l), Some(r), Some(j)) => Some(Some([l, r, j]))
      case _ => None
  }

  function SnapshotRows(lines: seq<string>, parse: string -> Option<real>): (r: Option<Table>)
    ensures r.Some? ==> forall k :: 0 <= k < |r.value| ==> |r.value[k]| == NumActions
  {
    if lines == [] then Some([])
    else match (RowOf(lines[0], parse), SnapshotRows(lines[1..], parse))
      case (Some(Some(row)), Some(rows)) => Some([row] + rows)
      case (Some(None), Some(rows)) => Some(rows)
      case _ => None
  }

  /** Lines that are all table rows give one row each, in order. */
  lemma {:induction false} SnapshotRowsAll(lines: seq<string>, parse: string -> Option<real>)
    requires forall i :: 0 <= i < |lines| ==> RowOf(lines[i], parse).Some? && RowOf(lines[i], parse).value.Some?
    ensures SnapshotRows(lines, parse).Some?
    ensures |SnapshotRows(lines, parse).value| == |lines|
    ensures forall i :: 0 <= i < |lines| ==> SnapshotRows(lines, parse).value[i] == RowOf(lines[i], parse).value.value
  {
    if lines != [] {
      assert forall i :: 0 <= i < |lines| - 1 ==> lines[1..][i] == lines[i + 1];
      SnapshotRowsAll(lines[1..], parse);
    }
  }

  /** Warm start from the written format: the table rows after the four
      header lines, accepted with exactly one row per state. */
  function LoadSnapshot(file: Option<seq<string>>, parse: string -> Option<real>): (t: Table)
    ensures WellFormed(t)
  {
    match file
    case None => Default()
    case Some(lines) =>
      var body := if |lines| >= HeaderLines then lines[HeaderLines..] else [];
      match SnapshotRows(body, parse)
      case Some(rows) => if |rows| == NumStates then rows else Default()
      case None => Default()
  }

  /** The rendered row of state `s` reads back as that state's row. */
  lemma RowOfRendered(t: Table, show: real -> string, parse: string -> Option<real>, s: nat)
    requires WellFormed(t) && ValidState(s) && Printable(t, show, parse)
    ensures RowOf(Join(RowWords(t, show, s)), parse) == Some(Some(Reread(t, show, parse)[s]))
  {
    var ws := RowWords(t, show, s);
    RowWordsAreWords(t, show, parse, s);
    WordsOfJoin(ws);
    var row := Reread(t, show, parse)[s];
    assert row == [row[0], row[1], row[2]];
  }

  lemma RowWordsAreWords(t: Table, show: real -> string, parse: string -> Option<real>, s: nat)
    requires WellFormed(t) && ValidState(s) && Printable(t, show, parse)
    ensures |RowWords(t, show, s)| == |ColumnNames|
    ensures forall k :: 0 <= k < |RowWords(t, show, s)| ==> IsWord(RowWords(t, show, s)[k])
  {
    assert IsWord(show(t[s][0])) && IsWord(show(t[s][1])) && IsWord(show(t[s][2]));
    DirectionNamesAreWords();
    assert IsWord("|");
  }

  lemma DirectionNamesAreWords()
    ensures forall d :: 0 <= d < |DirectionNames| ==> IsWord(DirectionNames[d])
  {
    assert IsWord(DirectionNames[0]) && IsWord(DirectionNames[1]);
    assert IsWord(DirectionNames[2]) && IsWord(DirectionNames[3]);
  }

  /** The table rows of a written snapshot read back as the re-read table. */
  lemma RenderedRows(t: Table, show: real -> string, parse: string -> Option<real>)
    requires WellFormed(t) && Printable(t, show, parse)
    ensures SnapshotRows(Render(t, show)[HeaderLines..], parse) == Some(Reread(t, show, parse))
  {
    var body := RowLines(t, show);
    var expected := Reread(t, show, parse);
    forall i | 0 <= i < |body|
      ensures RowOf(body[i], parse) == Some(Some(expected[i]))
    {
      RowOfRendered(t, show, parse, i);
    }
    SnapshotRowsAll(body, parse);
    var rows := SnapshotRows(body, parse).value;
    forall i | 0 <= i < |rows|
      ensures rows[i] == expected[i]
    {
      assert rows[i] == RowOf(body[i], parse).value.value;
    }
    assert rows == expected;
  }

  /** Round trip: loading a written snapshot gives back the table, every
      value passed through its printed form and back. */
  lemma SnapshotRoundTrip(t: Table, show: real -> string, parse: string -> Option<real>)
    requires WellFormed(t) && Printable(t, show, parse)
    ensures LoadSnapshot(Some(Render(t, show)), parse) == Reread(t, show, parse)
  {
    RenderedRows(t, show, parse);
  }

  /** With a number format that reads back exactly, the written snapshot
      restores the table itself. */
  lemma LosslessSnapshotRoundTrip(t: Table, show: real -> string, parse: string -> Option<real>)
    requires WellFormed(t)
    requires forall s, a :: 0 <= s < NumStates && 0 <= a < NumActions ==>
               IsWord(show(t[s][a])) && parse(show(t[s][a])) == Some(t[s][a])
    ensures LoadSnapshot(Some(Render(t, show)), parse) == t
  {
    SnapshotRoundTrip(t, show, parse);
    RereadExact(t, show, parse);
  }

  lemma RereadExact(t: Table, show: real -> string, parse: string -> Option<real>)
    requires WellFormed(t)
    requires forall s, a :: 0 <= s < NumStates && 0 <= a < NumActions ==>
               IsWord(show(t[s][a])) && parse(show(t[s][a])) == Some(t[s][a])
    ensures Printable(t, show, parse)
    ensures Reread(t, show, parse) == t
  {
    var r := Reread(t, show, parse);
    forall s | 0 <= s < NumStates
      ensures r[s] == t[s]
    {
      assert |r[s]| == |t[s]|;
      assert forall a :: 0 <= a < NumActions ==> r[s][a] == t[s][a];
    }
    assert |r| == |t|;
  }
}

=== FILE: table_load.dfy ===
/** The pure part of `load_or_create_table`: the snapshot's lines, with the
    first two skipped as a header, are split on whitespace and converted to
    numbers; lines of exactly three numbers become rows, and the result is
    accepted only with exactly one row per state. Any number that fails to
    convert aborts the whole load, as the exception it raises is caught
    around the entire loop. `parse` stands for the float conversion. */
module TableLoad {
  import opened Options
  import opened QTable

  /** The characters the whitespace split and strip treat as blanks. */
  predicate IsSpace(c: char)
  {
    || c == ' ' || c == '\t' || c == '\n' || c == '\r' || c == '\U{000B}' || c == '\U{000C}'
    || ('\U{001C}' <= c <= '\U{001F}') || c == '\U{0085}' || c == '\U{00A0}' || c == '\U{1680}'
    || ('\U{2000}' <= c <= '\U{200A}') || c == '\U{2028}' || c == '\U{2029}' || c == '\U{202F}'
    || c == '\U{205F}' || c == '\U{3000}'
  }

  /** A non-empty run of non-blank characters. */
  predicate IsWord(w: string)
  {
    |w| > 0 && forall i :: 0 <= i < |w| ==> !IsSpace(w[i])
  }

  /** A line that strips to nothing. */
  predicate IsBlank(line: string)
  {
    forall i :: 0 <= i < |line| ==> IsSpace(line[i])
  }

  /** Length of the leading run of non-blank characters. */
  function WordLength(s: string): (n: nat)
    ensures n <= |s|
    ensures forall i :: 0 <= i < n ==> !IsSpace(s[i])
    ensures n < |s| ==> IsSpace(s[n])
  {
    if s == [] || IsSpace(s[0]) then 0 else 1 + WordLength(s[1..])
  }

  /** `line.split()`: the maximal runs of non-blank characters, in order. */
  function Words(s: string): (ws: seq<string>)
    ensures forall k :: 0 <= k < |ws| ==> IsWord(ws[k])
    ensures ws == [] <==> IsBlank(s)
  {
    SplitShape(s);
    Split(s)
  }

  /** The recursion behind Words: skip a blank, or take the leading word. */
  function Split(s: string): seq<string>
    decreases |s|
  {
    if s == [] then []
    else if IsSpace(s[0]) then Split(s[1..])
    else
      var n := WordLength(s);
      [s[..n]] + Split(s[n..])
  }

  lemma {:induction false} SplitShape(s: string)
    ensures forall k :: 0 <= k < |Split(s)| ==> IsWord(Split(s)[k])
    ensures Split(s) == [] <==> IsBlank(s)
    decreases |s|
  {
    if s == [] {
    } else if IsSpace(s[0]) {
      SplitShape(s[1..]);
      assert forall i :: 0 < i < |s| ==> s[i] == s[1..][i - 1];
    } else {
      var n := WordLength(s);
      SplitShape(s[n..]);
      var ws := Split(s);
      assert ws == [s[..n]] + Split(s[n..]);
      assert IsWord(ws[0]);
      assert forall k :: 0 < k < |ws| ==> ws[k] == Split(s[n..])[k - 1];
    }
  }

  /** A word followed by a blank (or nothing) is read as one whole word. */
  lemma {:induction false} WordLengthOfPrefix(w: string, tail: string)
    requires IsWord(w)
    requires tail == [] || IsSpace(tail[0])
    ensures WordLength(w + tail) == |w|
    decreases |w|
  {
    assert (w + tail)[1..] == w[1..] + tail;
    if |w| > 1 {
      WordLengthOfPrefix(w[1..], tail);
    } else {
      assert w[1..] + tail == tail;
    }
  }

  /** A blank ends the leading word whatever follows it. */
  lemma {:induction false} WordLengthBeforeSpace(a: string, rest: string)
    requires |rest| > 0 && IsSpace(rest[0])
    ensures WordLength(a + rest) == WordLength(a)
    decreases |a|
  {
    if a == [] {
      assert a + rest == rest;
    } else if !IsSpace(a[0]) {
      assert (a + rest)[1..] == a[1..] + rest;
      WordLengthBeforeSpace(a[1..], rest);
    }
  }

  /** A single word splits into itself. */
  lemma WordsOfWord(w: string)
    requires IsWord(w)
    ensures Words(w) == [w]
  {
    WordLengthOfPrefix(w, []);
    assert w + [] == w;
    assert !IsSpace(w[0]);
    assert Split(w) == [w[..|w|]] + Split(w[|w|..]);
    assert w[..|w|] == w && w[|w|..] == [];
  }

  /** Splitting at a blank: the words of `a`, a blank and `b` are the words
      of `a` followed by the words of `b`. With WordsOfWord this fixes the
      result of the split on every line. */
  lemma WordsSplit(a: string, c: char, b: string)
    requires IsSpace(c)
    ensures Words(a + [c] + b) == Words(a) + Words(b)
  {
    SplitAt(a, c, b);
  }

  lemma {:induction false} SplitAt(a: string, c: char, b: string)
    requires IsSpace(c)
    ensures Split(a + [c] + b) == Split(a) + Split(b)
    decreases |a|
  {
    var s := a + [c] + b;
    if a == [] {
      assert s == [c] + b && s[1..] == b;
    } else if IsSpace(a[0]) {
      SplitAt(a[1..], c, b);
      assert s[0] == a[0] && s[1..] == a[1..] + [c] + b;
    } else {
      var n := WordLength(a);
      SplitAt(a[n..], c, b);
      SplitAfterLeadingWord(a, c, b);
      assert [a[..n]] + (Split(a[n..]) + Split(b)) == ([a[..n]] + Split(a[n..])) + Split(b);
    }
  }

  lemma SplitAfterLeadingWord(a: string, c: char, b: string)
    requires IsSpace(c) && a != [] && !IsSpace(a[0])
    ensures Split(a + [c] + b) == [a[..WordLength(a)]] + Split(a[WordLength(a)..] + [c] + b)
  {
    var n := WordLength(a);
    var s := a + [c] + b;
    WordLengthBeforeSpace(a, [c] + b);
    assert s == a + ([c] + b) && s[0] == a[0];
    assert s[..n] == a[..n];
    assert s[n..] == a[n..] + [c] + b;
  }

  /** Converts every word, failing if any one fails. */
  function ParseAll(ws: seq<string>, parse: string -> Option<real>): (r: Option<seq<real>>)
    ensures r.Some? <==> forall k :: 0 <= k < |ws| ==> parse(ws[k]).Some?
    ensures r.Some? ==> |r.value| == |ws| && forall k :: 0 <= k < |ws| ==> r.value[k] == parse(ws[k]).value
  {
    if ws == [] then Some([])
    else match (parse(ws[0]), ParseAll(ws[1..], parse))
      case (Some(x), Some(xs)) => Some([x] + xs)
      case _ => None
  }

  /** A line the float conversion accepts: blank, or every word a number. */
  predicate LineConverts(line: string, parse: string -> Option<real>)
  {
    ParseAll(Words(line), parse).Some?
  }

  /** A line kept as a table row: it converts to exactly three numbers. */
  predicate IsRowLine(line: string, parse: string -> Option<real>)
  {
    |Words(line)| == NumActions && LineConverts(line, parse)
  }

  /** The rows read from the body of a snapshot, or None if a number in it
      fails to convert. */
  function ParseRows(lines: seq<string>, parse: string -> Option<real>): (r: Option<Table>)
    ensures r.Some? <==> forall i :: 0 <= i < |lines| ==> LineConverts(lines[i], parse)
    ensures r.Some? ==> |r.value| <= |lines|
    ensures r.Some? ==> forall k :: 0 <= k < |r.value| ==> |r.value[k]| == NumActions
  {
    if lines == [] then Some([])
    else
      var ws := Words(lines[0]);
      var head := ParseAll(ws, parse);
      var tail := ParseRows(lines[1..], parse);
      if head.None? || tail.None? then None
      else if ws != [] && |head.value| == NumActions then Some([head.value] + tail.value)
      else tail
  }

  /** Rows read from one line: its three numbers, or nothing. */
  lemma ParseRowsSingle(line: string, parse: string -> Option<real>)
    ensures LineConverts(line, parse) && !IsRowLine(line, parse) ==> ParseRows([line], parse) == Some([])
    ensures IsRowLine(line, parse) ==> ParseRows([line], parse) == Some([ParseAll(Words(line), parse).value])
  {
    assert [line][1..] == [];
    assert ParseRows([], parse) == Some([]);
    var head := ParseAll(Words(line), parse);
    if IsRowLine(line, parse) {
      assert [head.value] + [] == [head.value];
    }
  }

  /** Reading concatenated lines concatenates the rows read: together with
      ParseRowsSingle this determines ParseRows completely. */
  lemma {:induction false} ParseRowsAppend(a: seq<string>, b: seq<string>, parse: string -> Option<real>)
    ensures ParseRows(a + b, parse) ==
              if ParseRows(a, parse).Some? && ParseRows(b, parse).Some?
              then Some(ParseRows(a, parse).value + ParseRows(b, parse).value)
              else None
  {
    if a == [] {
      assert a + b == b;
      assert ParseRows(a, parse) == Some([]);
      if ParseRows(b, parse).Some? {
        assert [] + ParseRows(b, parse).value == ParseRows(b, parse).value;
      }
    } else {
      assert (a + b)[0] == a[0];
      assert (a + b)[1..] == a[1..] + b;
      ParseRowsAppend(a[1..], b, parse);
      var ws := Words(a[0]);
      var head := ParseAll(ws, parse);
      if head.Some? && ws != [] && |head.value| == NumActions
         && ParseRows(a[1..], parse).Some? && ParseRows(b, parse).Some? {
        var ta, tb := ParseRows(a[1..], parse).value, ParseRows(b, parse).value;
        assert [head.value] + (ta + tb) == ([head.value] + ta) + tb;
      }
    }
  }

  /** The lines after the two header lines (`readlines()[2:]`). */
  function Body(lines: seq<string>): seq<string>
  {
    if |lines| >= 2 then lines[2..] else []
  }

  /** The stored snapshot is accepted exactly when every line converts and
      exactly one three-number row per state remains. */
  predicate Accepts(lines: seq<string>, parse: string -> Option<real>)
  {
    var rows := ParseRows(Body(lines), parse);
    rows.Some? && |rows.value| == NumStates
  }

  /** `load_or_create_table`; `file` is None when no snapshot can be read. */
  function LoadOrCreate(file: Option<seq<string>>, parse: string -> Option<real>): (t: Table)
    ensures WellFormed(t)
    ensures file.Some? && Accepts(file.value, parse) ==> t == ParseRows(Body(file.value), parse).value
    ensures !(file.Some? && Accepts(file.value, parse)) ==> t == Default()
  {
    match file
    case None => Default()
    case Some(lines) =>
      match ParseRows(Body(lines), parse)
      case Some(rows) => if |rows| == NumStates then rows else Default()
      case None => Default()
  }

  /** A snapshot with too few rows is replaced by the uniform table. */
  lemma WrongRowCountFallsBack(lines: seq<string>, parse: string -> Option<real>)
    requires ParseRows(Body(lines), parse).Some?
    requires |ParseRows(Body(lines), parse).value| != NumStates
    ensures LoadOrCreate(Some(lines), parse) == Default()
  {
  }
}

=== FILE: training.dfy ===
/** `train_agent`: episodes of epsilon-greedy steps against a scripted
    environment, each step updating the table, with per-status counters,
    the routes of successful episodes and one epsilon decay per episode.
    A script that runs out stands for an environment that never answers
    again, where the client blocks; the model then returns None. */
module Training {
  import opened Options
  import opened QTable
  import opened Policy
  import opened Episode
  import opened Connection

  datatype Config = Config(alpha: real, gamma: real, epsilonDecay: real, episodes: nat)

  /** What the client makes of one exchange: the converted next state and
      reward, or a failure (any exception in lines 88-90). */
  datatype Reply = Reply(next: int, reward: real) | Failure

  /** One scripted environment step: the random draws of action selection
      and the environment's reply to the chosen action. */
  datatype TrainStep = TrainStep(draw: Draw, reply: Reply)

  predicate ValidReply(r: Reply)
  {
    r.Reply? ==> ValidState(r.next)
  }

  predicate ValidScript(script: seq<TrainStep>)
  {
    forall i :: 0 <= i < |script| ==> ValidDraw(script[i].draw) && ValidReply(script[i].reply)
  }

  /** Lines 87-95 of the client: a missing field or a value that does not
      convert (`int(_, 2)`, `float(_)`) is a failure; `toState` and
      `toReward` stand for the two conversions. */
  function ClientReply<V>(x: Exchange<V>, toState: V -> Option<int>, toReward: V -> Option<real>): (r: Option<Reply>)
    ensures r.None? <==> x.Blocked?
    ensures r == Some(Failure) <==> x.MissingField? || (x.Got? && (toState(x.state).None? || toReward(x.reward).None?))
    ensures r.Some? && r.value.Reply? ==>
              x.Got? && toState(x.state) == Some(r.value.next) && toReward(x.reward) == Some(r.value.reward)
  {
    match x
    case Blocked => None
    case MissingField(_) => Some(Failure)
    case Got(s, w, _) =>
      match (toState(s), toReward(w))
      case (Some(n), Some(v)) => Some(Reply(n, v))
      case _ => Some(Failure)
  }

  /** One entry of a route: where the agent was and what it did there. */
  datatype RouteStep = RouteStep(platform: int, direction: string, action: string)

  function Describe(state: int, action: nat): (r: RouteStep)
    requires ValidAction(action)
    ensures r.platform * 4 + DecodeState(state).direction == state
    ensures r.direction == DirectionNames[DecodeState(state).direction]
    ensures r.action == ActionNames[action]
  {
    var info := DecodeState(state);
    RouteStep(info.platform, info.name, ActionNames[action])
  }

  /** How an episode ended: with a terminal status, or aborted by a failed
      step (the `break` at line 95, which skips the update and the counters). */
  datatype EpisodeEnd = Finished(status: Status) | Aborted

  /** `calls` counts environment steps, `updates` table writes; `visited`
      holds the (state, action) cell of each call, in order. */
  datatype EpisodeRun = EpisodeRun(table: Table, end: EpisodeEnd, calls: nat, updates: nat, route: seq<RouteStep>,
                                   visited: seq<(int, int)>)

  /** A reply that lets a step at `steps` continue the episode. */
  predicate Continues(r: Reply, steps: nat)
  {
    r.Reply? && Classify(r.reward, steps).1 == Continue
  }

  /** Every reply of the script lets the episode continue. */
  predicate AllContinue(script: seq<TrainStep>, steps: nat)
  {
    forall i :: 0 <= i < |script| ==> Continues(script[i].reply, steps + i)
  }

  /** How an episode run relates to the script it consumed from step
      `steps` on: one route entry per call, every call but the last
      continued, and the last call decides the end. */
  predicate Consistent(e: EpisodeRun, script: seq<TrainStep>, steps: nat)
  {
    && WellFormed(e.table)
    && 1 <= e.calls <= |script|
    && |e.route| == e.calls
    && (forall i :: 0 <= i < e.calls - 1 ==> Continues(script[i].reply, steps + i))
    && (e.end.Aborted? <==> script[e.calls - 1].reply.Failure?)
    && (e.end.Aborted? ==> e.updates == e.calls - 1)
    && (e.end.Finished? ==>
          && e.updates == e.calls
          && e.end.status != Continue
          && e.end.status == Classify(script[e.calls - 1].reply.reward, steps + e.calls - 1).1)
  }

  /** The calls of a run stood where the replies led: the first in
      `state`, each later one in the state the previous reply named, and
      each route entry describes its call's cell. */
  predicate Visits(e: EpisodeRun, state: int, script: seq<TrainStep>)
  {
    && |e.visited| == e.calls == |e.route|
    && e.calls <= |script|
    && (e.calls > 0 ==> e.visited[0].0 == state)
    && (forall i :: 0 <= i < e.calls - 1 ==> script[i].reply.Reply? && e.visited[i + 1].0 == script[i].reply.next)
    && (forall i :: 0 <= i < e.calls ==> ValidAction(e.visited[i].1) && e.route[i] == Describe(e.visited[i].0, e.visited[i].1))
  }

  /** Only the cells of the first `e.updates` calls may differ between `t`
      and the run's table: in particular a failed call writes nothing. */
  predicate WritesOnly(e: EpisodeRun, t: Table)
    requires WellFormed(t) && WellFormed(e.table) && e.updates <= |e.visited|
  {
    forall s', a' :: 0 <= s' < NumStates && 0 <= a' < NumActions && (s', a') !in e.visited[..e.updates] ==>
      e.table[s'][a'] == t[s'][a']
  }

  lemma AllContinueStep(script: seq<TrainStep>, steps: nat)
    requires |script| > 0
    ensures AllContinue(script, steps) <==> Continues(script[0].reply, steps) && AllContinue(script[1..], steps + 1)
  {
    assert forall i :: 0 <= i < |script| - 1 ==> script[1..][i] == script[i + 1];
    if Continues(script[0].reply, steps) && AllContinue(script[1..], steps + 1) {
      forall i | 0 <= i < |script|
        ensures Continues(script[i].reply, steps + i)
      {
        if i > 0 {
          assert script[i] == script[1..][i - 1];
        }
      }
    }
  }

  lemma ConsistentStep(e: EpisodeRun, script: seq<TrainStep>, steps: nat, here: RouteStep, cells: seq<(int, int)>)
    requires |script| > 0 && Continues(script[0].reply, steps)
    requires Consistent(e, script[1..], steps + 1)
    ensures Consistent(EpisodeRun(e.table, e.end, e.calls + 1, e.updates + 1, [here] + e.route, cells), script, steps)
  {
    assert forall i :: 0 <= i < |script| - 1 ==> script[1..][i] == script[i + 1];
    forall i | 0 <= i < e.calls
      ensures Continues(script[i].reply, steps + i)
    {
      if i > 0 {
        assert script[i] == script[1..][i - 1];
      }
    }
  }

  /** The inner loop of one training episode from `state`, with `steps`
      steps already taken. */
  function RunEpisode(cfg: Config, t: Table, epsilon: real, state: int, steps: nat,
                      script: seq<TrainStep>): (r: Option<EpisodeRun>)
    requires WellFormed(t) && ValidState(state) && ValidScript(script)
    ensures r.None? <==> AllContinue(script, steps)
    ensures r.Some? ==> Consistent(r.value, script, steps)
    decreases |script|
  {
    if script == [] then None
    else
      var step := script[0];
      var a := Choose(t, state, epsilon, step.draw);
      var here := Describe(state, a);
      AllContinueStep(script, steps);
      match step.reply
      case Failure => Some(EpisodeRun(t, Aborted, 1, 0, [here], [(state, a)]))
      case Reply(next, reward) =>
        var (done, status) := Classify(reward, steps);
        var t' := Update(t, state, a, reward, next, done, cfg.alpha, cfg.gamma);
        if done then Some(EpisodeRun(t', Finished(status), 1, 1, [here], [(state, a)]))
        else
          assert ValidScript(script[1..]) by { SuffixValid(script, 1); }
          match RunEpisode(cfg, t', epsilon, next, steps + 1, script[1..])
          case None => None
          case Some(e) =>
            var cells := [(state, a)] + e.visited;
            ConsistentStep(e, script, steps, here, cells);
            Some(EpisodeRun(e.table, e.end, e.calls + 1, e.updates + 1, [here] + e.route, cells))
  }

  /** Where the calls of an episode stood, and that only the cells of the
      calls that updated were written. */
  lemma {:induction false} RunEpisodeWrites(cfg: Config, t: Table, epsilon: real, state: int, steps: nat,
                                            script: seq<TrainStep>)
    requires WellFormed(t) && ValidState(state) && ValidScript(script)
    requires RunEpisode(cfg, t, epsilon, state, steps, script).Some?
    ensures Visits(RunEpisode(cfg, t, epsilon, state, steps, script).value, state, script)
    ensures WritesOnly(RunEpisode(cfg, t, epsilon, state, steps, script).value, t)
    decreases |script|
  {
    var step := script[0];
    var a := Choose(t, state, epsilon, step.draw);
    var here := Describe(state, a);
    match step.reply
    case Failure =>
    case Reply(next, reward) =>
      var (done, status) := Classify(reward, steps);
      var t' := Update(t, state, a, reward, next, done, cfg.alpha, cfg.gamma);
      if !done {
        SuffixValid(script, 1);
        var e := RunEpisode(cfg, t', epsilon, next, steps + 1, script[1..]).value;
        RunEpisodeWrites(cfg, t', epsilon, next, steps + 1, script[1..]);
        VisitsStep(e, state, a, script);
        WritesStep(e, t, t', state, a, here);
        assert RunEpisode(cfg, t, epsilon, state, steps, script).value
            == EpisodeRun(e.table, e.end, e.calls + 1, e.updates + 1, [here] + e.route, [(state, a)] + e.visited);
      }
  }

  lemma VisitsStep(e: EpisodeRun, state: int, a: int, script: seq<TrainStep>)
    requires |script| > 0 && script[0].reply.Reply? && ValidAction(a) && e.calls >= 1
    requires Visits(e, script[0].reply.next, script[1..])
    ensures Visits(EpisodeRun(e.table, e.end, e.calls + 1, e.updates + 1, [Describe(state, a)] + e.route,
                              [(state, a)] + e.visited), state, script)
  {
    var r := EpisodeRun(e.table, e.end, e.calls + 1, e.updates + 1, [Describe(state, a)] + e.route,
                        [(state, a)] + e.visited);
    forall i | 0 <= i < r.calls - 1
      ensures script[i].reply.Reply? && r.visited[i + 1].0 == script[i].reply.next
    {
      assert r.visited[i + 1] == e.visited[i];
      if i > 0 {
        assert script[i] == script[1..][i - 1];
      }
    }
    forall i | 0 <= i < r.calls
      ensures ValidAction(r.visited[i].1) && r.route[i] == Describe(r.visited[i].0, r.visited[i].1)
    {
      if i > 0 {
        assert r.visited[i] == e.visited[i - 1] && r.route[i] == e.route[i - 1];
      }
    }
  }

  lemma WritesStep(e: EpisodeRun, t: Table, t': Table, state: int, a: int, here: RouteStep)
    requires WellFormed(t) && WellFormed(t') && WellFormed(e.table) && e.updates <= |e.visited|
    requires forall s', a' :: 0 <= s' < NumStates && 0 <= a' < NumActions && (s' != state || a' != a) ==>
               t'[s'][a'] == t[s'][a']
    requires WritesOnly(e, t')
    ensures WritesOnly(EpisodeRun(e.table, e.end, e.calls + 1, e.updates + 1, [here] + e.route, [(state, a)] + e.visited), t)
  {
    var cells := [(state, a)] + e.visited;
    assert cells[..e.updates + 1] == [(state, a)] + e.visited[..e.updates];
  }

  lemma SuffixValid(script: seq<TrainStep>, n: nat)
    requires ValidScript(script) && n <= |script|
    ensures ValidScript(script[n..])
  {
    assert forall i :: 0 <= i < |script| - n ==> script[n..][i] == script[n + i];
  }

  // -----------------------------------------------------------------------
  // What an episode sends and writes, replayed call by call

  /** The first `k` calls can be replayed: each stood in a valid cell and
      received a converted reply. */
  predicate Replayable(cells: seq<(int, int)>, script: seq<TrainStep>, k: nat)
  {
    && k <= |cells| && k <= |script|
    && forall i :: 0 <= i < k ==>
         && ValidState(cells[i].0) && ValidAction(cells[i].1)
         && script[i].reply.Reply? && ValidState(script[i].reply.next)
  }

  /** Lines 97-98 applied to the first `k` calls in order, independently of
      the episode loop: call `i` updates cell `cells[i]` with the reply of
      `script[i]`, classified at step `steps + i`. A call that cannot be
      replayed (an invalid cell, a failed reply) writes nothing. */
  function Replay(cfg: Config, t: Table, cells: seq<(int, int)>, script: seq<TrainStep>, steps: nat, k: nat): (r: Table)
    requires WellFormed(t) && k <= |cells| && k <= |script|
    ensures WellFormed(r)
    decreases k
  {
    if k == 0 then t
    else
      var prev := Replay(cfg, t, cells, script, steps, k - 1);
      var (s, a) := cells[k - 1];
      var reply := script[k - 1].reply;
      if ValidState(s) && ValidAction(a) && reply.Reply? && ValidState(reply.next)
      then Update(prev, s, a, reply.reward, reply.next, Classify(reply.reward, steps + k - 1).0, cfg.alpha, cfg.gamma)
      else prev
  }

  /** Replaying a first call and then the calls after it is replaying
      those calls from the table `t'` the first call wrote. */
  lemma {:induction false} ReplayShift(cfg: Config, t: Table, t': Table, cell: (int, int), cells: seq<(int, int)>,
                                       script: seq<TrainStep>, steps: nat, k: nat)
    requires WellFormed(t) && 1 <= k <= |cells| + 1 && k <= |script|
    requires ValidState(cell.0) && ValidAction(cell.1)
    requires script[0].reply.Reply? && ValidState(script[0].reply.next)
    requires var x := script[0].reply;
             t' == Update(t, cell.0, cell.1, x.reward, x.next, Classify(x.reward, steps).0, cfg.alpha, cfg.gamma)
    ensures Replay(cfg, t, [cell] + cells, script, steps, k) == Replay(cfg, t', cells, script[1..], steps + 1, k - 1)
    decreases k
  {
    var all := [cell] + cells;
    if k == 1 {
      assert Replay(cfg, t, all, script, steps, 0) == t;
    } else {
      ReplayShift(cfg, t, t', cell, cells, script, steps, k - 1);
      assert all[k - 1] == cells[k - 2] && script[k - 1] == script[1..][k - 2];
      assert steps + 1 + (k - 2) == steps + k - 1;
    }
  }

  lemma ReplayableCons(cell: (int, int), cells: seq<(int, int)>, script: seq<TrainStep>, k: nat)
    requires |script| > 0 && Replayable(cells, script[1..], k)
    requires ValidState(cell.0) && ValidAction(cell.1)
    requires script[0].reply.Reply? && ValidState(script[0].reply.next)
    ensures Replayable([cell] + cells, script, k + 1)
  {
    var all := [cell] + cells;
    forall i | 0 < i <= k
      ensures all[i] == cells[i - 1] && script[i] == script[1..][i - 1]
    {
    }
  }

  /** The table an episode leaves and the action of each of its calls, in
      terms of the replay: every update of the episode wrote its cell from
      its own reply, and every call chose its action by epsilon-greedy
      selection on the table as it stood before that call. */
  predicate Replays(cfg: Config, t: Table, epsilon: real, steps: nat, script: seq<TrainStep>, e: EpisodeRun)
    requires WellFormed(t) && ValidScript(script)
  {
    && 1 <= e.calls <= |script| && |e.visited| == e.calls && e.updates <= e.calls
    && Replayable(e.visited, script, e.updates)
    && e.table == Replay(cfg, t, e.visited, script, steps, e.updates)
    && forall i :: 0 <= i < e.calls ==>
         && ValidState(e.visited[i].0)
         && e.visited[i].1 == Choose(Replay(cfg, t, e.visited, script, steps, i), e.visited[i].0, epsilon, script[i].draw)
  }

  /** Lines 82 and 98: a finished episode's table is the replay of its
      updates, and each action sent is the epsilon-greedy choice on the
      table as the earlier calls left it. */
  lemma {:induction false} RunEpisodeReplays(cfg: Config, t: Table, epsilon: real, state: int, steps: nat,
                                             script: seq<TrainStep>)
    requires WellFormed(t) && ValidState(state) && ValidScript(script)
    requires RunEpisode(cfg, t, epsilon, state, steps, script).Some?
    ensures Replays(cfg, t, epsilon, steps, script, RunEpisode(cfg, t, epsilon, state, steps, script).value)
    decreases |script|
  {
    var step := script[0];
    var a := Choose(t, state, epsilon, step.draw);
    var here := Describe(state, a);
    match step.reply
    case Failure =>
      ReplaysOneCall(cfg, t, epsilon, state, steps, script, a, EpisodeRun(t, Aborted, 1, 0, [here], [(state, a)]));
    case Reply(next, reward) =>
      var (done, status) := Classify(reward, steps);
      var t' := Update(t, state, a, reward, next, done, cfg.alpha, cfg.gamma);
      if done {
        ReplaysOneCall(cfg, t, epsilon, state, steps, script, a, EpisodeRun(t', Finished(status), 1, 1, [here], [(state, a)]));
      } else {
        SuffixValid(script, 1);
        var e := RunEpisode(cfg, t', epsilon, next, steps + 1, script[1..]).value;
        RunEpisodeReplays(cfg, t', epsilon, next, steps + 1, script[1..]);
        var r := EpisodeRun(e.table, e.end, e.calls + 1, e.updates + 1, [here] + e.route, [(state, a)] + e.visited);
        assert RunEpisode(cfg, t, epsilon, state, steps, script).value == r;
        ReplaysStep(cfg, t, epsilon, state, steps, script, a, e, r);
      }
  }

  /** An episode of a single call: it wrote nothing, or its one update. */
  lemma ReplaysOneCall(cfg: Config, t: Table, epsilon: real, state: int, steps: nat, script: seq<TrainStep>,
                       a: nat, r: EpisodeRun)
    requires WellFormed(t) && ValidState(state) && ValidScript(script) && |script| > 0
    requires a == Choose(t, state, epsilon, script[0].draw)
    requires r.calls == 1 && r.visited == [(state, a)]
    requires || (r.updates == 0 && r.table == t)
             || (&& r.updates == 1 && script[0].reply.Reply?
                 && var x := script[0].reply;
                    r.table == Update(t, state, a, x.reward, x.next, Classify(x.reward, steps).0, cfg.alpha, cfg.gamma))
    ensures Replays(cfg, t, epsilon, steps, script, r)
  {
    assert Replay(cfg, t, r.visited, script, steps, 0) == t;
  }

  lemma ReplaysStep(cfg: Config, t: Table, epsilon: real, state: int, steps: nat, script: seq<TrainStep>,
                    a: nat, e: EpisodeRun, r: EpisodeRun)
    requires WellFormed(t) && ValidState(state) && ValidScript(script) && |script| > 0
    requires script[0].reply.Reply? && a == Choose(t, state, epsilon, script[0].draw)
    requires ValidScript(script[1..])
    requires var x := script[0].reply;
             Replays(cfg, Update(t, state, a, x.reward, x.next, Classify(x.reward, steps).0, cfg.alpha, cfg.gamma),
                     epsilon, steps + 1, script[1..], e)
    requires r.table == e.table && r.calls == e.calls + 1 && r.updates == e.updates + 1
    requires r.visited == [(state, a)] + e.visited
    ensures Replays(cfg, t, epsilon, steps, script, r)
  {
    var x := script[0].reply;
    var t' := Update(t, state, a, x.reward, x.next, Classify(x.reward, steps).0, cfg.alpha, cfg.gamma);
    TableStep(cfg, t, t', state, a, steps, script, e, r);
    ChoicesStep(cfg, t, t', epsilon, state, steps, script, a, e, r);
  }

  lemma TableStep(cfg: Config, t: Table, t': Table, state: int, a: nat, steps: nat, script: seq<TrainStep>,
                  e: EpisodeRun, r: EpisodeRun)
    requires WellFormed(t) && ValidState(state) && ValidAction(a) && |script| > 0
    requires script[0].reply.Reply? && ValidState(script[0].reply.next)
    requires var x := script[0].reply;
             t' == Update(t, state, a, x.reward, x.next, Classify(x.reward, steps).0, cfg.alpha, cfg.gamma)
    requires e.updates <= |e.visited| && e.updates < |script|
    requires Replayable(e.visited, script[1..], e.updates)
    requires e.table == Replay(cfg, t', e.visited, script[1..], steps + 1, e.updates)
    requires r.table == e.table && r.updates == e.updates + 1 && r.visited == [(state, a)] + e.visited
    ensures Replayable(r.visited, script, r.updates)
    ensures r.table == Replay(cfg, t, r.visited, script, steps, r.updates)
  {
    ReplayShift(cfg, t, t', (state, a), e.visited, script, steps, e.updates + 1);
    ReplayableCons((state, a), e.visited, script, e.updates);
  }

  lemma ChoicesStep(cfg: Config, t: Table, t': Table, epsilon: real, state: int, steps: nat, script: seq<TrainStep>,
                    a: nat, e: EpisodeRun, r: EpisodeRun)
    requires WellFormed(t) && ValidState(state) && ValidScript(script) && |script| > 0
    requires script[0].reply.Reply? && a == Choose(t, state, epsilon, script[0].draw)
    requires ValidScript(script[1..])
    requires var x := script[0].reply;
             t' == Update(t, state, a, x.reward, x.next, Classify(x.reward, steps).0, cfg.alpha, cfg.gamma)
    requires Replays(cfg, t', epsilon, steps + 1, script[1..], e)
    requires r.calls == e.calls + 1 && r.visited == [(state, a)] + e.visited
    ensures forall i :: 0 <= i < r.calls ==>
              && ValidState(r.visited[i].0)
              && r.visited[i].1 == Choose(Replay(cfg, t, r.visited, script, steps, i), r.visited[i].0, epsilon, script[i].draw)
  {
    forall i | 0 <= i < r.calls
      ensures ValidState(r.visited[i].0)
      ensures r.visited[i].1 == Choose(Replay(cfg, t, r.visited, script, steps, i), r.visited[i].0, epsilon, script[i].draw)
    {
      if i > 0 {
        ReplayShift(cfg, t, t', (state, a), e.visited, script, steps, i);
        assert r.visited[i] == e.visited[i - 1] && script[i] == script[1..][i - 1];
      } else {
        assert Replay(cfg, t, r.visited, script, steps, 0) == t;
      }
    }
  }

  /** Rows of states the episode never stood in keep their values: every
      write is to the row of the state the step was taken from. */
  lemma RunEpisodeFrame(cfg: Config, t: Table, epsilon: real, state: int, steps: nat,
                         script: seq<TrainStep>, s': int)
    requires WellFormed(t) && ValidState(state) && ValidScript(script) && ValidState(s')
    requires RunEpisode(cfg, t, epsilon, state, steps, script).Some?
    requires s' != state
    requires forall i :: 0 <= i < RunEpisode(cfg, t, epsilon, state, steps, script).value.calls - 1 ==>
               script[i].reply.Reply? && script[i].reply.next != s'
    ensures RunEpisode(cfg, t, epsilon, state, steps, script).value.table[s'] == t[s']
  {
    var e := RunEpisode(cfg, t, epsilon, state, steps, script).value;
    RunEpisodeWrites(cfg, t, epsilon, state, steps, script);
    forall i | 0 <= i < e.calls
      ensures e.visited[i].0 != s'
    {
      if i > 0 {
        assert e.visited[(i - 1) + 1].0 == script[i - 1].reply.next;
      }
    }
    forall a' | 0 <= a' < NumActions
      ensures e.table[s'][a'] == t[s'][a']
    {
      assert (s', a') !in e.visited[..e.updates];
    }
  }

  /** The call that fails writes nothing: unless an earlier call of the
      episode already wrote its cell, that cell keeps its value. */
  lemma FailedCallWritesNothing(cfg: Config, t: Table, epsilon: real, state: int, steps: nat,
                                script: seq<TrainStep>)
    requires WellFormed(t) && ValidState(state) && ValidScript(script)
    requires RunEpisode(cfg, t, epsilon, state, steps, script).Some?
    requires RunEpisode(cfg, t, epsilon, state, steps, script).value.end == Aborted
    ensures Visits(RunEpisode(cfg, t, epsilon, state, steps, script).value, state, script)
    ensures var e := RunEpisode(cfg, t, epsilon, state, steps, script).value;
            var (s', a') := e.visited[e.calls - 1];
            (s', a') !in e.visited[..e.calls - 1] ==>
              0 <= s' < NumStates && 0 <= a' < NumActions && e.table[s'][a'] == t[s'][a']
  {
    var e := RunEpisode(cfg, t, epsilon, state, steps, script).value;
    RunEpisodeWrites(cfg, t, epsilon, state, steps, script);
    var n := e.calls - 1;
    var (s', a') := e.visited[n];
    if n > 0 {
      assert s' == script[n - 1].reply.next;
      assert ValidReply(script[n - 1].reply);
    }
    assert ValidAction(a');
    assert e.updates == n;
  }

  /** A failed step writes nothing: the episode aborts with the table it had. */
  lemma FailedStepWritesNothing(cfg: Config, t: Table, epsilon: real, state: int, steps: nat,
                                script: seq<TrainStep>)
    requires WellFormed(t) && ValidState(state) && ValidScript(script)
    requires |script| > 0 && script[0].reply.Failure?
    ensures RunEpisode(cfg, t, epsilon, state, steps, script).Some?
    ensures var e := RunEpisode(cfg, t, epsilon, state, steps, script).value;
            e.table == t && e.end == Aborted && e.calls == 1 && e.updates == 0
  {
  }

  /** An episode that never sees a terminal reward ends in TIMEOUT after
      exactly 501 environment steps: the budget is compared with the count
      taken before the current step. */
  lemma {:induction false} TimeoutAfter501Steps(cfg: Config, t: Table, epsilon: real, state: int, steps: nat,
                                                script: seq<TrainStep>)
    requires WellFormed(t) && ValidState(state) && ValidScript(script)
    requires steps <= StepBudget && |script| >= StepBudget + 1 - steps
    requires forall i :: 0 <= i <= StepBudget - steps ==>
               script[i].reply.Reply? && script[i].reply.reward != SuccessReward && script[i].reply.reward != DeathReward
    ensures RunEpisode(cfg, t, epsilon, state, steps, script).Some?
    ensures RunEpisode(cfg, t, epsilon, state, steps, script).value.end == Finished(Timeout)
    ensures RunEpisode(cfg, t, epsilon, state, steps, script).value.calls == StepBudget + 1 - steps
    decreases StepBudget - steps
  {
    var step := script[0];
    var a := Choose(t, state, epsilon, step.draw);
    var next, reward := step.reply.next, step.reply.reward;
    var (done, status) := Classify(reward, steps);
    if steps < StepBudget {
      var t' := Update(t, state, a, reward, next, done, cfg.alpha, cfg.gamma);
      assert forall i :: 0 <= i <= StepBudget - (steps + 1) ==> script[1..][i] == script[i + 1];
      TimeoutAfter501Steps(cfg, t', epsilon, next, steps + 1, script[1..]);
    }
  }

  // -----------------------------------------------------------------------
  // The episode loop

  /** Episode counters by terminal status. */
  datatype Tally = Tally(successes: nat, deaths: nat, timeouts: nat)

  function Total(c: Tally): nat
  {
    c.successes + c.deaths + c.timeouts
  }

  /** Lines 100-111: the terminal status bumps its own counter; an aborted
      episode bumps none. */
  function Record(c: Tally, end: EpisodeEnd): (r: Tally)
    ensures end.Aborted? || end.status == Continue ==> r == c
    ensures end == Finished(Success) ==> r == c.(successes := c.successes + 1)
    ensures end == Finished(Death) ==> r == c.(deaths := c.deaths + 1)
    ensures end == Finished(Timeout) ==> r == c.(timeouts := c.timeouts + 1)
    ensures Total(r) <= Total(c) + 1
  {
    match end
    case Aborted => c
    case Finished(Success) => c.(successes := c.successes + 1)
    case Finished(Death) => c.(deaths := c.deaths + 1)
    case Finished(Timeout) => c.(timeouts := c.timeouts + 1)
    case Finished(Continue) => c
  }

  /** A successful episode's log entry: its 1-based number, the step count
      as the client records it (before the final increment) and its route. */
  datatype SuccessRoute = SuccessRoute(episode: nat, steps: nat, route: seq<RouteStep>)

  /** The loop's state: the agent, the counters, the route log and how each
      episode so far ended. */
  datatype TrainState = TrainState(agent: Agent, tally: Tally, routes: seq<SuccessRoute>, ends: seq<EpisodeEnd>)

  predicate Ready(s: TrainState)
  {
    WellFormed(s.agent.table)
  }

  /** The log entries from position `from` on belong to episodes in
      (`lo`, `hi`], in increasing episode order, each route holding one
      entry per step. */
  predicate LogBetween(routes: seq<SuccessRoute>, from: nat, lo: nat, hi: nat)
  {
    && (forall k :: from <= k < |routes| ==>
          lo < routes[k].episode <= hi && |routes[k].route| == routes[k].steps + 1)
    && (forall k, l :: from <= k < l < |routes| ==> routes[k].episode < routes[l].episode)
  }

  /** Lines 100-116 after episode number `episode + 1` ended as `e`: count
      it, log its route if it succeeded, decay epsilon. */
  function EndEpisode(cfg: Config, s: TrainState, episode: nat, e: EpisodeRun): (s': TrainState)
    requires WellFormed(e.table) && |e.route| == e.calls >= 1
    ensures Ready(s')
    ensures s'.agent == Agent(e.table, Decay(s.agent.epsilon, cfg.epsilonDecay))
    ensures s'.tally == Record(s.tally, e.end)
    ensures e.end == Finished(Success) ==> s'.routes == s.routes + [SuccessRoute(episode + 1, e.calls - 1, e.route)]
    ensures e.end != Finished(Success) ==> s'.routes == s.routes
    ensures s'.ends == s.ends + [e.end]
  {
    var routes := if e.end == Finished(Success)
                  then s.routes + [SuccessRoute(episode + 1, e.calls - 1, e.route)]
                  else s.routes;
    TrainState(Agent(e.table, Decay(s.agent.epsilon, cfg.epsilonDecay)), Record(s.tally, e.end), routes, s.ends + [e.end])
  }

  /** Number of episodes among `ends` that ended as `x`. */
  function CountEnds(ends: seq<EpisodeEnd>, x: EpisodeEnd): (n: nat)
    ensures n <= |ends|
  {
    if ends == [] then 0
    else CountEnds(ends[..|ends| - 1], x) + (if ends[|ends| - 1] == x then 1 else 0)
  }

  /** The 1-based numbers of the episodes among `ends` that succeeded, in
      increasing order. */
  function SuccessNumbers(ends: seq<EpisodeEnd>): (r: seq<nat>)
  {
    if ends == [] then []
    else SuccessNumbers(ends[..|ends| - 1]) + (if ends[|ends| - 1] == Finished(Success) then [|ends|] else [])
  }

  /** The episode numbers of the log entries, in log order. */
  function EpisodeNumbers(routes: seq<SuccessRoute>): (r: seq<nat>)
    ensures |r| == |routes| && forall k :: 0 <= k < |routes| ==> r[k] == routes[k].episode
  {
    seq(|routes|, k requires 0 <= k < |routes| => routes[k].episode)
  }

  /** A success number names a succeeded episode, and every succeeded
      episode has its number in the list. */
  lemma {:induction false} SuccessNumbersExact(ends: seq<EpisodeEnd>)
    ensures forall n :: n in SuccessNumbers(ends) ==> 1 <= n <= |ends| && ends[n - 1] == Finished(Success)
    ensures forall j :: 0 <= j < |ends| && ends[j] == Finished(Success) ==> j + 1 in SuccessNumbers(ends)
    ensures |SuccessNumbers(ends)| == CountEnds(ends, Finished(Success))
  {
    if ends != [] {
      var init := ends[..|ends| - 1];
      SuccessNumbersExact(init);
      assert forall j :: 0 <= j < |init| ==> init[j] == ends[j];
    }
  }

  /** The counters and the log agree with the ends of the `episode`
      episodes run so far: each counter counts its own status, and the log
      holds one entry for each succeeded episode, in order. */
  predicate Tallied(s: TrainState, episode: nat)
  {
    && |s.ends| == episode
    && s.tally.successes == CountEnds(s.ends, Finished(Success))
    && s.tally.deaths == CountEnds(s.ends, Finished(Death))
    && s.tally.timeouts == CountEnds(s.ends, Finished(Timeout))
    && EpisodeNumbers(s.routes) == SuccessNumbers(s.ends)
  }

  /** Ending an episode keeps counters and log in step with the ends. */
  lemma EndEpisodeTallied(cfg: Config, s: TrainState, episode: nat, e: EpisodeRun)
    requires WellFormed(e.table) && |e.route| == e.calls >= 1
    requires Tallied(s, episode)
    ensures Tallied(EndEpisode(cfg, s, episode, e), episode + 1)
  {
    var s' := EndEpisode(cfg, s, episode, e);
    assert s'.ends[..|s'.ends| - 1] == s.ends;
    if e.end == Finished(Success) {
      assert EpisodeNumbers(s'.routes) == EpisodeNumbers(s.routes) + [episode + 1];
    }
  }

  /** The accounting facts TrainFrom promises, from `s` over episodes
      `episode + 1 .. n`, ending in `f`. */
  predicate Accounted(s: TrainState, f: TrainState, episode: nat, n: nat)
    requires episode <= n
  {
    && Total(f.tally) <= Total(s.tally) + (n - episode)
    && f.tally.successes >= s.tally.successes
    && |f.routes| >= |s.routes|
    && |f.routes| - |s.routes| == f.tally.successes - s.tally.successes
    && f.routes[..|s.routes|] == s.routes
    && LogBetween(f.routes, |s.routes|, episode, n)
  }

  /** Everything TrainFrom promises about a run from `s` over episodes
      `episode + 1 .. cfg.episodes` that ends in `f` after `used` steps. */
  predicate Trained(cfg: Config, s: TrainState, episode: nat, script: seq<TrainStep>, f: TrainState, used: nat)
    requires episode <= cfg.episodes
  {
    && Ready(f)
    && used <= |script|
    && f.agent.epsilon == DecayN(s.agent.epsilon, cfg.epsilonDecay, cfg.episodes - episode)
    && Accounted(s, f, episode, cfg.episodes)
    && |f.ends| == |s.ends| + (cfg.episodes - episode)
    && f.ends[..|s.ends|] == s.ends
    && (Tallied(s, episode) ==> Tallied(f, cfg.episodes))
  }

  /** The promise for one episode composes with the promise for the rest. */
  lemma TrainedStep(cfg: Config, s: TrainState, episode: nat, script: seq<TrainStep>, e: EpisodeRun,
                    f: TrainState, used: nat)
    requires WellFormed(e.table) && |e.route| == e.calls >= 1 && e.calls <= |script|
    requires episode < cfg.episodes
    requires Trained(cfg, EndEpisode(cfg, s, episode, e), episode + 1, script[e.calls..], f, used)
    ensures Trained(cfg, s, episode, script, f, used + e.calls)
  {
    var s' := EndEpisode(cfg, s, episode, e);
    assert f.routes[..|s.routes|] == s.routes by {
      assert f.routes[..|s'.routes|][..|s.routes|] == s'.routes[..|s.routes|];
    }
    if e.end == Finished(Success) {
      var k0 := |s.routes|;
      assert f.routes[k0] == s'.routes[k0];
    }
    assert f.ends[..|s.ends|] == s.ends by {
      assert f.ends[..|s'.ends|][..|s.ends|] == s'.ends[..|s.ends|];
    }
    if Tallied(s, episode) {
      EndEpisodeTallied(cfg, s, episode, e);
    }
    DecayNShift(s.agent.epsilon, cfg.epsilonDecay, cfg.episodes - episode - 1);
  }

  /** Episodes `episode + 1 .. cfg.episodes`; yields the final state and the
      number of scripted steps consumed. */
  function TrainFrom(cfg: Config, s: TrainState, episode: nat, script: seq<TrainStep>): (r: Option<(TrainState, nat)>)
    requires Ready(s) && ValidScript(script) && episode <= cfg.episodes
    ensures r.Some? ==> Trained(cfg, s, episode, script, r.value.0, r.value.1)
    decreases cfg.episodes - episode, 1
  {
    if episode == cfg.episodes then Some((s, 0))
    else
      match RunEpisode(cfg, s.agent.table, s.agent.epsilon, 0, 0, script)
      case None => None
      case Some(e) => TrainAfter(cfg, s, episode, script, e)
  }

  /** The rest of the episode loop once episode `episode + 1` has run as `e`. */
  function TrainAfter(cfg: Config, s: TrainState, episode: nat, script: seq<TrainStep>, e: EpisodeRun): (r: Option<(TrainState, nat)>)
    requires Ready(s) && ValidScript(script) && episode < cfg.episodes
    requires WellFormed(e.table) && |e.route| == e.calls >= 1 && e.calls <= |script|
    ensures r.Some? ==> Trained(cfg, s, episode, script, r.value.0, r.value.1)
    ensures r.Some? ==> r.value.0.ends[|s.ends|] == e.end
    decreases cfg.episodes - episode, 0
  {
    var s' := EndEpisode(cfg, s, episode, e);
    SuffixValid(script, e.calls);
    match TrainFrom(cfg, s', episode + 1, script[e.calls..])
    case None => None
    case Some(rest) =>
      TrainedStep(cfg, s, episode, script, e, rest.0, rest.1);
      Some((rest.0, rest.1 + e.calls))
  }

  /** The end the loop records for its next episode is the end of the
      episode run from state 0 on the table and epsilon it had. */
  lemma FirstEndIsRun(cfg: Config, s: TrainState, episode: nat, script: seq<TrainStep>)
    requires Ready(s) && ValidScript(script) && episode < cfg.episodes
    requires TrainFrom(cfg, s, episode, script).Some?
    ensures RunEpisode(cfg, s.agent.table, s.agent.epsilon, 0, 0, script).Some?
    ensures TrainFrom(cfg, s, episode, script).value.0.ends[|s.ends|]
         == RunEpisode(cfg, s.agent.table, s.agent.epsilon, 0, 0, script).value.end
  {
    assert RunEpisode(cfg, s.agent.table, s.agent.epsilon, 0, 0, script).Some?;
    TrainFromUnfold(cfg, s, episode, script);
  }

  /** Decaying once and then `n` times is decaying `n + 1` times. */
  lemma {:induction false} DecayNShift(epsilon: real, factor: real, n: nat)
    ensures DecayN(Decay(epsilon, factor), factor, n) == DecayN(epsilon, factor, n + 1)
  {
    if n > 0 {
      DecayNShift(epsilon, factor, n - 1);
    }
  }

  /** Percentage of successful runs; the client divides by the run count. */
  function SuccessRate(successes: nat, total: nat): (rate: real)
    requires total > 0
    ensures successes <= total ==> 0.0 <= rate <= 100.0
    ensures rate == 100.0 <==> successes == total
    ensures rate == 0.0 <==> successes == 0
  {
    (successes as real / total as real) * 100.0
  }

  /** What `train_agent` leaves: the agent, the counters, the route log, how
      each episode ended and the final rate. */
  datatype Training = Training(agent: Agent, tally: Tally, routes: seq<SuccessRoute>, ends: seq<EpisodeEnd>, rate: real)

  /** `train_agent` from a fresh route log. */
  function Train(cfg: Config, agent: Agent, script: seq<TrainStep>): (r: Option<Training>)
    requires WellFormed(agent.table) && ValidScript(script) && cfg.episodes > 0
    ensures r.Some? ==>
              var f := r.value;
              && WellFormed(f.agent.table)
              && Total(f.tally) <= cfg.episodes
              && |f.ends| == cfg.episodes
              && f.tally.successes == CountEnds(f.ends, Finished(Success))
              && f.tally.deaths == CountEnds(f.ends, Finished(Death))
              && f.tally.timeouts == CountEnds(f.ends, Finished(Timeout))
              && EpisodeNumbers(f.routes) == SuccessNumbers(f.ends)
              && |f.routes| == f.tally.successes
              && f.agent.epsilon == DecayN(agent.epsilon, cfg.epsilonDecay, cfg.episodes)
              && 0.0 <= f.rate <= 100.0
              && f.rate == SuccessRate(f.tally.successes, cfg.episodes)
              && (forall k :: 0 <= k < |f.routes| ==> 0 < f.routes[k].episode <= cfg.episodes)
              && (forall k, l :: 0 <= k < l < |f.routes| ==> f.routes[k].episode < f.routes[l].episode)
    ensures var loop := TrainFrom(cfg, TrainState(agent, Tally(0, 0, 0), [], []), 0, script);
            && r.Some? == loop.Some?
            && (r.Some? ==> && r.value.agent == loop.value.0.agent
                            && r.value.tally == loop.value.0.tally
                            && r.value.routes == loop.value.0.routes
                            && r.value.ends == loop.value.0.ends)
  {
    var start := TrainState(agent, Tally(0, 0, 0), [], []);
    match TrainFrom(cfg, start, 0, script)
    case None => None
    case Some((f, _)) =>
      assert Accounted(start, f, 0, cfg.episodes);
      assert Tallied(start, 0);
      Some(Training(f.agent, f.tally, f.routes, f.ends, SuccessRate(f.tally.successes, cfg.episodes)))
  }

  // -----------------------------------------------------------------------
  // A scripted environment that rewards the first action of every episode

  /** Every reply in the script is the success reward. */
  predicate AlwaysSucceeds(script: seq<TrainStep>)
  {
    forall i :: 0 <= i < |script| ==> script[i].reply.Reply? && script[i].reply.reward == SuccessReward
  }

  lemma AlwaysSucceedsSuffix(script: seq<TrainStep>)
    requires |script| > 0 && AlwaysSucceeds(script)
    ensures AlwaysSucceeds(script[1..])
  {
    assert forall i :: 0 <= i < |script| - 1 ==> script[1..][i] == script[1 + i];
  }

  /** An episode whose first reply is the success reward ends there. */
  lemma FirstStepSucceeds(cfg: Config, t: Table, epsilon: real, script: seq<TrainStep>)
    requires WellFormed(t) && ValidScript(script)
    requires |script| > 0 && script[0].reply.Reply? && script[0].reply.reward == SuccessReward
    ensures RunEpisode(cfg, t, epsilon, 0, 0, script).Some?
    ensures RunEpisode(cfg, t, epsilon, 0, 0, script).value.calls == 1
    ensures RunEpisode(cfg, t, epsilon, 0, 0, script).value.end == Finished(Success)
  {
  }

  /** When every reply is the success reward, every remaining episode
      succeeds: the success counter grows by one per episode and nothing
      else is counted. */
  lemma {:induction false} AlwaysSucceedsFrom(cfg: Config, s: TrainState, episode: nat, script: seq<TrainStep>)
    requires Ready(s) && ValidScript(script) && episode <= cfg.episodes
    requires AlwaysSucceeds(script) && |script| >= cfg.episodes - episode
    ensures TrainFrom(cfg, s, episode, script).Some?
    ensures TrainFrom(cfg, s, episode, script).value.0.tally
         == s.tally.(successes := s.tally.successes + (cfg.episodes - episode))
    decreases cfg.episodes - episode
  {
    if episode < cfg.episodes {
      SuffixValid(script, 1);
      var s' := SucceedsOnce(cfg, s, episode, script);
      AlwaysSucceedsSuffix(script);
      AlwaysSucceedsFrom(cfg, s', episode + 1, script[1..]);
    }
  }

  /** ... and each of their log entries records a single step. */
  lemma {:induction false} AlwaysSucceedsLog(cfg: Config, s: TrainState, episode: nat, script: seq<TrainStep>)
    requires Ready(s) && ValidScript(script) && episode <= cfg.episodes
    requires AlwaysSucceeds(script) && |script| >= cfg.episodes - episode
    requires TrainFrom(cfg, s, episode, script).Some?
    ensures var f := TrainFrom(cfg, s, episode, script).value.0;
            forall k :: |s.routes| <= k < |f.routes| ==> f.routes[k].steps == 0
    decreases cfg.episodes - episode
  {
    if episode < cfg.episodes {
      SuffixValid(script, 1);
      var s' := SucceedsOnce(cfg, s, episode, script);
      AlwaysSucceedsSuffix(script);
      AlwaysSucceedsLog(cfg, s', episode + 1, script[1..]);
      var f := TrainFrom(cfg, s', episode + 1, script[1..]).value.0;
      SingleStepLog(s.routes, s'.routes, f.routes);
    }
  }

  /** A log that extends a log by one single-step entry, and is then
      extended only by single-step entries, adds only single-step entries. */
  lemma SingleStepLog(routes: seq<SuccessRoute>, mid: seq<SuccessRoute>, last: seq<SuccessRoute>)
    requires |mid| == |routes| + 1 && mid[..|routes|] == routes && mid[|routes|].steps == 0
    requires |last| >= |mid| && last[..|mid|] == mid
    requires forall k :: |mid| <= k < |last| ==> last[k].steps == 0
    ensures forall k :: |routes| <= k < |last| ==> last[k].steps == 0
  {
    assert last[|routes|] == mid[|routes|];
  }

  /** An episode that succeeds at its first step: the state it leaves and
      how the rest of the loop continues from it. */
  lemma SucceedsOnce(cfg: Config, s: TrainState, episode: nat, script: seq<TrainStep>) returns (s': TrainState)
    requires Ready(s) && ValidScript(script) && episode < cfg.episodes
    requires |script| > 0 && script[0].reply.Reply? && script[0].reply.reward == SuccessReward
    requires ValidScript(script[1..])
    ensures Ready(s')
    ensures s'.tally == s.tally.(successes := s.tally.successes + 1)
    ensures |s'.routes| == |s.routes| + 1 && s'.routes[..|s.routes|] == s.routes && s'.routes[|s.routes|].steps == 0
    ensures TrainFrom(cfg, s, episode, script).Some? == TrainFrom(cfg, s', episode + 1, script[1..]).Some?
    ensures TrainFrom(cfg, s', episode + 1, script[1..]).Some? ==>
              TrainFrom(cfg, s, episode, script).value.0 == TrainFrom(cfg, s', episode + 1, script[1..]).value.0
  {
    FirstStepSucceeds(cfg, s.agent.table, s.agent.epsilon, script);
    var e := RunEpisode(cfg, s.agent.table, s.agent.epsilon, 0, 0, script).value;
    s' := EndEpisode(cfg, s, episode, e);
    TrainFromUnfold(cfg, s, episode, script);
    TrainAfterUnfold(cfg, s, episode, script, e);
  }

  /** One unfolding of the episode loop. */
  lemma TrainFromUnfold(cfg: Config, s: TrainState, episode: nat, script: seq<TrainStep>)
    requires Ready(s) && ValidScript(script) && episode < cfg.episodes
    requires RunEpisode(cfg, s.agent.table, s.agent.epsilon, 0, 0, script).Some?
    ensures TrainFrom(cfg, s, episode, script)
         == TrainAfter(cfg, s, episode, script, RunEpisode(cfg, s.agent.table, s.agent.epsilon, 0, 0, script).value)
  {
  }

  lemma TrainAfterUnfold(cfg: Config, s: TrainState, episode: nat, script: seq<TrainStep>, e: EpisodeRun)
    requires Ready(s) && ValidScript(script) && episode < cfg.episodes
    requires WellFormed(e.table) && |e.route| == e.calls >= 1 && e.calls <= |script|
    requires ValidScript(script[e.calls..])
    ensures TrainAfter(cfg, s, episode, script, e).Some?
         == TrainFrom(cfg, EndEpisode(cfg, s, episode, e), episode + 1, script[e.calls..]).Some?
    ensures TrainAfter(cfg, s, episode, script, e).Some? ==>
              TrainAfter(cfg, s, episode, script, e).value.0
              == TrainFrom(cfg, EndEpisode(cfg, s, episode, e), episode + 1, script[e.calls..]).value.0
  {
  }

  /** Every episode succeeds at its first step: a 100% success rate and a
      log of one single-step route per episode. */
  lemma AlwaysSucceedsTraining(cfg: Config, agent: Agent, script: seq<TrainStep>)
    requires WellFormed(agent.table) && ValidScript(script) && cfg.episodes > 0
    requires AlwaysSucceeds(script) && |script| >= cfg.episodes
    ensures Train(cfg, agent, script).Some?
    ensures var f := Train(cfg, agent, script).value;
            && f.tally == Tally(cfg.episodes, 0, 0)
            && f.rate == 100.0
            && |f.routes| == cfg.episodes
            && (forall k :: 0 <= k < |f.routes| ==> |f.routes[k].route| == 1)
  {
    AlwaysSucceedsFrom(cfg, TrainState(agent, Tally(0, 0, 0), [], []), 0, script);
    AlwaysSucceedsLog(cfg, TrainState(agent, Tally(0, 0, 0), [], []), 0, script);
  }
}
